=== FILE: README.md ===
# Parkour platformer: frame simulation model

A Dafny model of the simulation step of a browser parkour platformer
(`game.js`). It covers everything one frame does to the player, the power-up
timers and the level's mutable flags:

- the rectangle overlap test;
- the power-up timers and their activation;
- the input step (running, jumping, double jump, wall-jump, roll);
- the integrator and the animation bookkeeping;
- the collision resolver's passes over platforms, walls, billboards,
  obstacles, power-ups and checkpoints, and the canvas clamp;
- the particle pool's capacity and lifetimes;
- level loading, the two resets, the goal and fall checks;
- level completion with the leaderboard, and the best-time query.

Coordinates are exact `real`s. The game's constants (0.5, 1.8, 0.3, 0.8,
-12, 8) are exact there. Keyboard and touch controls become one `Intent` per
frame. The canvas size and the completion date are parameters.

Modules, one file each:

- `Geometry`: rectangles and the overlap test.
- `PowerUps`: effect timers and pickup activation.
- `Particles`: the particle pool.
- `PlayerState`: the player record, constants and intent.
- `Levels`: level geometry.
- `Collisions`: the resolver.
- `Input`: the input step.
- `Physics`: the integrator and animation.
- `Leaderboard`: completion times.
- `Run`: the game state and the frame update.

The solid passes work on `Collisions.Body`, the nine player fields those
passes read and write. `Collisions.CheckCollisions` copies the result back
into the player.

Behaviours of the code that a reader might not expect, all modelled as
written:

- The platform head-bump is not skipped under invincibility. It is also
  unreachable: overlap already puts the player's top above the platform's
  bottom (`Collisions.HeadBumpUnreachable`).
- Billboard landing is skipped under invincibility.
- Wall landing has no previous-bottom test.
- A roll started this frame already shows 19 frames left, not 20. The player
  stands up on the 20th frame counting the start.
- Neither reset restores the player's height. A death during a roll leaves a
  20-high player that is not rolling. So the invariant is only "rolling
  implies 20 high with frames left", not "20 high exactly when rolling".

Further quirks:

- The landing-dust test reads the vertical speed after it was zeroed, so it
  never fires.
- The animation state is derived after the contact flags are cleared, so
  `Running` and `Idle` never result from a physics step.
- The airborne test in the jump always holds. A jump taken without a
  double-jump charge therefore clears the double-jump timer, even from the
  ground.
- A jump next to a wall also triggers the wall-jump in the same frame.

The board's sort is a comparator sort, which JavaScript engines perform stably
(ECMAScript 2019 onward). The model sorts by stable insertion, so entries with
equal times keep the order in which they were recorded.

## Model

| member | source | states |
|---|---|---|
| Geometry.OverlapsIffSharedPoint | game.js:1342-1347 | for boxes of positive size, the four strict comparisons hold exactly when some point lies strictly inside both boxes |
| Geometry.OverlapsSymmetric | game.js:1342-1347 | the overlap test does not depend on argument order |
| Geometry.SeparatedDoNotOverlap | game.js:1342-1347 | boxes that are apart or only share an edge or a corner do not overlap, because every comparison is strict |
| Geometry.SolidOverlapsItself | game.js:1342-1347 | a box of positive size overlaps itself |
| PowerUps.Tick | game.js:959-963 | every positive timer drops by exactly one, a zero timer stays zero, and non-negative timers stay non-negative |
| PowerUps.TicksCountDown | game.js:959-963 | after n frames each non-negative timer is its old value minus n, floored at zero |
| PowerUps.Activate | game.js:1316-1329 | speed sets its timer to 300; double jump sets its timer to 600 and grants the charge; invincibility sets its timer to 180; an unknown kind changes nothing; timers stay non-negative |
| Particles.AddParticle | game.js:1117-1129 | below the cap of 100 one particle with full lifetime is appended; at the cap the pool is unchanged |
| Particles.Burst | game.js:1167-1176 | an emitter loop keeps the old particles in order and appends as many full-lifetime particles as fit below the cap; a full pool is untouched |
| Particles.AgedShrinks | game.js:1132-1151 | ageing never grows the pool; its particles are exactly those that had more than one frame left, each one frame older, so every survivor is alive |
| Particles.UpdateParticles | game.js:1132-1151 | the backward walk with in-place removal computes exactly the functional ageing of the pool, and every survivor has lifetime left |
| Collisions.HeadBumpUnreachable | game.js:1180-1183 | the head-bump condition is false whenever the player overlaps the rectangle it is tested against |
| Collisions.PlatformStep | game.js:1156-1193 | landing snaps the player onto the top, zeroes the vertical speed, sets onGround and clears isJumping, whatever the invincibility; otherwise a non-invincible player crossing the left face is pushed to `r.x - width`, one crossing only the right face to `r.x + r.width`, and in every other case nothing changes; no particle is emitted; a player at rest vertically keeps y, speed and isJumping |
| Collisions.PlatformPass | game.js:1156-1193 | the whole platform pass emits no particle, keeps an invincible player's x, changes only contact fields and never clears onGround; a player at rest vertically (as a landing leaves it) keeps its height, zero speed and jumping flag, so a landing on the first platform leaves the player resting on top of it at the end of the pass |
| Collisions.PlatformPassSplit | game.js:1156-1193 | the platform pass over a list is the pass over its first k platforms followed by the pass over the rest |
| Collisions.PlatformLandingHolds | game.js:1156-1193 | landing on any platform, as the player arrives at it, leaves the player resting on top of it at the end of the pass |
| Collisions.WallStep | game.js:1196-1219 | a player crossing the left face is pushed to `w.x - width`, one crossing only the right face to `w.x + w.width`, both marked touching the wall, invincible or not; otherwise a non-invincible falling player is put on top (zero speed, on the ground, not jumping, nothing else changed) without any previous-bottom test, a rising one is snapped under the wall with zero speed, and anything else is left as it was |
| Collisions.WallPass | game.js:1196-1219 | an invincible player keeps y and vertical speed across all walls; onGround and touchingWall are never cleared; a side contact with the first wall leaves the player touching a wall, and a non-invincible falling player landing on it ends resting on top of it |
| Collisions.WallPassSplit | game.js:1196-1219 | the wall pass over a list is the pass over its first k walls followed by the pass over the rest |
| Collisions.WallContactHolds | game.js:1196-1219 | a side contact with any wall, as the player arrives at it, leaves it touching a wall at the end of the pass; a landing on any wall leaves it resting on top of that wall |
| Collisions.BillboardStep | game.js:1222-1255 | a side contact pushes the player to the crossed face and marks it touching a wall; wall-running starts exactly when it is steering into the billboard; landing on top happens only when not invincible and changes only y, vertical speed, onGround and isJumping; a contact that is neither changes nothing |
| Collisions.BillboardPass | game.js:1222-1255 | an invincible player keeps y, vertical speed and onGround; wall-running, onGround and touchingWall are never cleared; steering into the side of the first billboard leaves the player wall-running and touching a wall, and a non-invincible landing on it ends resting on top of it |
| Collisions.BillboardPassSplit | game.js:1222-1255 | the billboard pass over a list is the pass over its first k billboards followed by the pass over the rest |
| Collisions.BillboardContactHolds | game.js:1222-1255 | steering into the side of any billboard, as the player arrives at it, leaves it wall-running and touching a wall at the end of the pass; a landing on any billboard leaves it resting on top of that billboard |
| Collisions.ObstacleStep | game.js:1258-1279 | a rolling or invincible player passes through unchanged; otherwise landing from above changes only y, vertical speed, onGround and isJumping, else a side contact pushes the player to the crossed face, else nothing changes; there is no head-bump case |
| Collisions.ObstaclePass | game.js:1258-1279 | with the player rolling or invincible the whole pass changes nothing; otherwise a landing on the first obstacle leaves the player resting on top of it at the end of the pass |
| Collisions.ObstaclePassSplit | game.js:1258-1279 | the obstacle pass over a list is the pass over its first k obstacles followed by the pass over the rest |
| Collisions.ObstacleLandingHolds | game.js:1258-1279 | a non-rolling, non-invincible landing on any obstacle, as the player arrives at it, leaves it resting on top of that obstacle at the end of the pass |
| Collisions.PowerUpStep | game.js:1282-1298 | only an uncollected overlapped power-up is picked up: it becomes collected and its effect is activated; anything else is left as it was |
| Collisions.PowerUpPass | game.js:1282-1298 | exactly the overlapped power-ups end up collected, in order; with nothing left to pick up the pass changes nothing; timers stay non-negative; the particle cap holds |
| Collisions.PicksKindSplit | game.js:1282-1298 | a power-up of a given kind is picked up from a list exactly when the first one is picked up and of that kind, or one is picked up from the rest |
| Collisions.PickupTimer | game.js:1282-1298 | after the power-up pass each effect timer holds its full duration exactly when a power-up of its kind was picked up, and its old value otherwise |
| Collisions.PickupCharge | game.js:1282-1298 | after the power-up pass the double-jump charge is held exactly when it was held before or a double-jump power-up was picked up |
| Collisions.PickupEffects | game.js:1282-1298 | the speed timer is 300 exactly when a speed power-up was picked up, the double-jump timer 600 exactly when a double-jump one was, the invincibility timer 180 exactly when an invincibility one was, each timer otherwise unchanged, and the charge granted exactly when held or a double-jump power-up was picked up |
| Collisions.PickupIdempotent | game.js:1283-1285 | a second overlap with the same power-ups changes no flag, timer or particle |
| Collisions.CheckpointPass | game.js:1302-1307 | the respawn point becomes the position of the last overlapped checkpoint, and stays put if none is overlapped |
| Collisions.Clamp | game.js:1310-1312 | a box above the top is put at y = 0; one past the right edge is put flush with it; one left of 0 is put at 0 when it fits (flush with the right edge when it does not); the box ends inside horizontally when it fits and never above the top; a box already inside is not moved |
| Collisions.SolidPasses | game.js:1156-1279 | the platform, wall, billboard and obstacle passes together emit no particle, keep the player's size and never clear onGround or touchingWall |
| Collisions.CheckCollisions | game.js:1154-1313 | the player's box is the clamp of where the solid passes left it, with their speed and contact flags; the timers, double-jump charge, power-up flags and particles are those of the power-up pass over that box; the respawn point is that of the checkpoint pass over it; the player ends below the canvas top, not past its right edge, and, when it fits, not past its left edge; size, roll state, horizontal speed, facing, sprinting, animation state and gait clock are untouched |
| Input.RollCountdown | game.js:1033-1040 | a rolling player's timer drops by one; the roll ends exactly when the timer was at most one, and the player is then 40 high; a player not rolling is unchanged |
| Input.RollLastsItsTimer | game.js:1026-1040 | a roll with k frames left stays 20 high and rolling for k-1 frames, and stands up at 40 on the k-th |
| Input.HandleInput | game.js:966-1041 | the jump fires exactly under its gate and sets the jump speed, isJumping and clears onGround and the charge; the double-jump timer survives only when a charge was used; a wall-jump follows whenever the gate and the wall hold; facing follows the steering and a wall-jump turns it round; a roll starts at 19 frames left and 20 high, and a player not rolling starts one only under the roll gate (roll held, on the ground, not jumping this frame); the roll invariant is kept; position, width, touchingWall, the respawn point, the animation state and the gait clock are untouched |
| Physics.UpdateAnimationState | game.js:1083-1114 | the state is wall-running, rolling, jumping/falling or running exactly under the flag conditions of its priority chain, and the gait clock stays in range |
| Physics.GaitAdvancesEveryFifthFrame | game.js:1085-1090 | after n frames the gait sub-counter is (t+n) mod 5 and the frame index has advanced once per completed five frames, modulo 4 |
| Physics.JsRemainder | game.js:1088 | JavaScript's remainder is what is left of the dividend after the multiple of the truncated quotient; it keeps the dividend's sign and is smaller than the divisor in size |
| Physics.Integrate | game.js:1044-1076 | gravity is added under the time scale; clinging to a wall multiplies the speed by 0.8, and by a further 0.5 when wall-running; wall-running holds exactly when clinging and pressing forward; position moves by the scaled velocity; horizontal speed, facing and sprinting are kept and both contact flags are cleared |
| Physics.FlightFollowsParabola | game.js:1044-1076 | away from walls, n frames of integration follow the discrete parabola: vertical speed gains n scaled gravity steps, height moves by the scaled sum of the n speeds, and x moves n scaled horizontal steps |
| Physics.ApplyPhysics | game.js:1044-1080 | the physics step integrates as above (including the 0.8 wall damping), clears both contact flags, never yields Running or Idle, keeps the gait clock in range and leaves size, roll and jump state, the respawn point, facing and sprinting alone |
| Leaderboard.InsertionPoint | game.js:900-901 | scanning from the back, the new entry's slot lies after an entry not slower than it and before only strictly slower entries, which is where a stable sort of the board with the entry appended puts it |
| Leaderboard.InsertPlacesAfterTies | game.js:900-901 | on a sorted board, every entry before the slot is not slower than the new entry and every entry from the slot on is slower, so ties keep their arrival order |
| Leaderboard.InsertKeepsSorted | game.js:900-901 | inserting into a sorted board keeps it sorted |
| Leaderboard.InsertIsPermutation | game.js:894-901 | insertion adds exactly the new entry and loses none |
| Leaderboard.SortByTime | game.js:900-901 | the sorted board is ascending by time and a permutation of its input |
| Leaderboard.SortingSortedIsIdentity | game.js:900-901 | sorting an already sorted board leaves it unchanged |
| Leaderboard.Record | game.js:894-906 | after recording, the board is sorted ascending, holds at most 100 entries (one more than before unless capped), and holds only old entries and the new one |
| Leaderboard.RecordKeepsFastest | game.js:903-906 | every entry dropped by the cap is at least as slow as every entry kept |
| Leaderboard.CapKeepsFastest | game.js:903-906 | cutting a sorted board after its first hundred entries drops nothing faster than what it keeps |
| Leaderboard.RecordOnSortedBoard | game.js:894-906 | on an already sorted board, recording is a stable insertion followed by the cap |
| Leaderboard.BestTime | game.js:792-797 | there is no best time exactly when the level has no entry; otherwise it is the time of one of the level's entries and no entry of the level is faster |
| Leaderboard.BestTimeIsFirstOnSortedBoard | game.js:792-797 | on a sorted board the best time is the time of the level's first entry |
| Run.LoadLevel | game.js:627-638 | the stage is a copy of the chosen template, power-up flags included; the templates, player, timers and leaderboard are untouched |
| Run.Uncollected | game.js:832 | every power-up keeps its place and kind and becomes uncollected |
| Run.ResetGame | game.js:800-835 | the player is at the level start, which is also its checkpoint, with zero speed and cleared flags, facing right; timers, clock and flags are reset; all power-ups are uncollected; height is not restored |
| Run.ResetGameIdempotent | game.js:800-835 | resetting twice is resetting once |
| Run.ResetToCheckpoint | game.js:937-956 | the player is at its checkpoint with zero speed and cleared flags; the timers are inactive; the clock, stage and leaderboard are untouched |
| Run.ResetToCheckpointIdempotent | game.js:937-956 | respawning twice is respawning once |
| Run.CompleteLevel | game.js:883-906 | the first call raises the completion flag and records the current time for the current level; while the flag is up a call changes nothing; the board stays sorted and capped |
| Run.CompletionRecordedOnce | game.js:884-885 | a second completion call adds nothing to the leaderboard |
| Run.GoalCheck | game.js:872-874 | touching the goal with no completion pending completes the level; otherwise nothing changes |
| Run.FallCheck | game.js:877-879 | a player more than 100 below the canvas respawns at its checkpoint with zero speed and inactive timers; otherwise nothing changes |
| Run.PlayerStep | game.js:858-866 | the player step is input on freshly ticked timers, then physics on the input's result under the slow-motion flag input leaves, then collisions with the stage; it keeps timers non-negative, the roll invariant, the particle cap and the stage's power-up layout |
| Run.PlayerStepKeepsGaitClock | game.js:858-866 | the player step keeps the gait clock in range |
| Run.StandingStaysOnPlatform | game.js:1044-1170 | a player standing still on the first platform, away from walls, falls one frame of gravity into it and is landed back at the same height, at rest on the ground |
| Run.Simulate | game.js:846-869 | the clock advances by 1/60 s, or by 0.3 of that in slow motion; the world's player, timers and power-up flags are those of the player step, its particles that step's pool aged by one frame, and its slow-motion flag the one input leaves, which a wall-jump may raise but nothing lowers; templates, level index, leaderboard, gameStarted and levelCompleting are untouched |
| Run.SimulatePreservesValid | game.js:846-869 | the simulation part of a frame keeps the game invariant |
| Run.Update | game.js:845-880 | nothing happens before the game starts; the clock advances; after the simulation, touching the goal with no completion pending records the time on the leaderboard and marks the level completing, and otherwise leaves the board and the flag alone; a player more than 100 below the canvas respawns as `Run.ResetToCheckpoint` puts it with inactive timers, and otherwise the simulated player, timers, stage and particles stand; the leaderboard grows by at most one entry and is frozen while a completion is pending |
| Run.UpdatePreservesValid | game.js:845-880 | every frame keeps the game invariant: stage matches its template, timers non-negative, at most 100 particles, leaderboard sorted and capped, roll invariant, gait clock in range |

## Left out

- Random particle emission is not modelled: wall-run dust, running dust, and the positions, speeds and colours of particles. Only the pool's cap and lifetimes are kept.
- Sound, music, rendering, DOM dialogs, level select and the leaderboard screens are not modelled.
- The game loop, the event handlers that set `gameStarted`, and the conversion of keys and touch buttons into intents are not modelled.
- The delayed callbacks are not modelled: the slow-motion end and the level advance after completion. Within a level nothing here lowers `slowMotion` or `levelCompleting`; only `Run.ResetGame` clears them, as the game's reset does.
- Storage of the leaderboard is not modelled. The date is an opaque parameter, and a board loaded from storage is assumed sorted and capped by `Run.Valid`.
- The tutorial flags and the modal flag that `resetGame` also sets are not modelled.
- The level data of the three built-in levels is not modelled; the model holds for any list of levels.
- IEEE-754 rounding is not modelled: arithmetic is exact, including `gameTime += 1/60`.
- Collisions.SolidPasses: the order of the four solid passes (platforms, walls, billboards, obstacles) is fixed by its definition; no contract states the order on its own.
- Leaderboard.SortByTime: its contract states ordering and permutation, not stability. Stability is stated one step at a time: `Leaderboard.InsertionPoint` places a new entry after every earlier entry that is not slower than it, and `Leaderboard.InsertPlacesAfterTies` spells this out for a sorted board.

=== FILE: collisions.dfy ===
/** The collision resolver. After the player has moved, it runs fixed passes
    in this order: platforms, walls, billboards, obstacles, power-ups,
    checkpoints, and finally a clamp to the canvas. Each pass is a left fold
    over the level's list, so an earlier rectangle's correction is what the
    next rectangle sees. */
module Collisions {
  import opened Geometry
  import opened PowerUps
  import opened Particles
  import opened PlayerState
  import opened Levels

  /** The part of the player that the solid passes (platforms, walls,
      billboards, obstacles) read and write. */
  datatype Body = Body(x: real, y: real, width: real, height: real, velocityY: real,
                       isJumping: bool, onGround: bool, touchingWall: bool,
                       isWallRunning: bool)
  {
    function Box(): Rect
    {
      Rect(x, y, width, height)
    }
  }

  /** Contact classification; each is tested only once the player's box and
      `r` overlap. */

  /** Falling, with the bottom edge before this frame's move at or above the
      top face of `r`. */
  predicate LandsOn(p: Body, r: Rect)
  {
    p.velocityY > 0.0 && p.y + p.height - p.velocityY <= r.y
  }

  /** Rising, with the top edge at or below the bottom face of `r`. */
  predicate HitsHead(p: Body, r: Rect)
  {
    p.velocityY < 0.0 && p.y >= r.y + r.height
  }

  /** While the boxes overlap, the player's top edge is above the bottom
      face of `r`, so the head-bump test of platforms and billboards can
      never pass where it is evaluated. */
  lemma HeadBumpUnreachable(p: Body, r: Rect)
    requires Overlaps(p.Box(), r)
    ensures !HitsHead(p, r)
  {
  }

  /** The player's right edge has crossed the left face of `r`. */
  predicate FromLeft(p: Body, r: Rect)
  {
    p.x + p.width > r.x && p.x < r.x
  }

  /** The player's left edge has crossed the right face of `r`. */
  predicate FromRight(p: Body, r: Rect)
  {
    p.x < r.x + r.width && p.x + p.width > r.x + r.width
  }

  /** Corrections: each snaps one face of the player to a face of `r`. */

  function Land(p: Body, r: Rect): Body
  {
    p.(y := r.y - p.height, velocityY := 0.0, isJumping := false, onGround := true)
  }

  function BumpHead(p: Body, r: Rect): Body
  {
    p.(y := r.y + r.height, velocityY := 0.0)
  }

  function PushLeft(p: Body, r: Rect): Body
  {
    p.(x := r.x - p.width)
  }

  function PushRight(p: Body, r: Rect): Body
  {
    p.(x := r.x + r.width)
  }

  /** `q` differs from `p` at most in position, vertical speed and the
      jumping/ground flags. */
  predicate OnlyContactChanges(p: Body, q: Body)
  {
    && q.width == p.width && q.height == p.height
    && q.touchingWall == p.touchingWall && q.isWallRunning == p.isWallRunning
  }

  /** `q` stands on the top face of `r`, at rest and no longer jumping. */
  predicate RestsOn(q: Body, r: Rect)
  {
    q.y + q.height == r.y && q.velocityY == 0.0 && q.onGround && !q.isJumping
  }

  // ---------------------------------------------------------------- platforms

  /** One platform. Landing applies whatever the invincibility timer says;
      the head-bump test is not gated by invincibility either, but it can
      never pass while the boxes overlap, so a platform only ever lands the
      player or pushes it sideways. The landing-dust test reads the vertical
      speed after it has been zeroed, so it never emits a particle. */
  function PlatformStep(p: Body, pool: seq<Particle>, invincibility: int, r: Rect)
    : (res: (Body, seq<Particle>))
    ensures !Overlaps(p.Box(), r) ==> res.0 == p
    ensures res.1 == pool
    ensures Overlaps(p.Box(), r) && LandsOn(p, r) ==>
              res.0 == p.(y := r.y - p.height, velocityY := 0.0, isJumping := false, onGround := true)
    ensures Overlaps(p.Box(), r) && !LandsOn(p, r) && invincibility == 0 && FromLeft(p, r) ==>
              res.0 == p.(x := r.x - p.width)
    ensures Overlaps(p.Box(), r) && !LandsOn(p, r) && invincibility == 0
            && !FromLeft(p, r) && FromRight(p, r) ==>
              res.0 == p.(x := r.x + r.width)
    ensures Overlaps(p.Box(), r) && !LandsOn(p, r)
            && (invincibility != 0 || (!FromLeft(p, r) && !FromRight(p, r))) ==>
              res.0 == p
    ensures invincibility != 0 ==> res.0.x == p.x
    ensures res.0.y == p.y || res.0.y + res.0.height == r.y
    ensures res.0.Box() != p.Box() ==> !Overlaps(res.0.Box(), r)
    ensures OnlyContactChanges(p, res.0)
    ensures p.onGround ==> res.0.onGround
    ensures p.velocityY == 0.0 ==>
              res.0.y == p.y && res.0.velocityY == 0.0 && res.0.isJumping == p.isJumping
  {
    if !Overlaps(p.Box(), r) then (p, pool)
    else if LandsOn(p, r) then
      var q := Land(p, r);
      (q, if q.velocityY > 5.0 then Burst(pool, 5, 15) else pool)
    else if HitsHead(p, r) then (BumpHead(p, r), pool)
    else if invincibility == 0 then
      if FromLeft(p, r) then (PushLeft(p, r), pool)
      else if FromRight(p, r) then (PushRight(p, r), pool)
      else (p, pool)
    else (p, pool)
  }

  /** The platform pass. It never emits a particle, never moves an invincible
      player sideways, and changes only the contact fields. A player at rest
      vertically (as a landing leaves it) is only ever moved sideways by the
      platforms after it, so it stays at the height it landed at. */
  function PlatformPass(p: Body, pool: seq<Particle>, invincibility: int, ps: seq<Rect>)
    : (res: (Body, seq<Particle>))
    ensures res.1 == pool
    ensures invincibility != 0 ==> res.0.x == p.x
    ensures OnlyContactChanges(p, res.0)
    ensures p.onGround ==> res.0.onGround
    ensures p.velocityY == 0.0 ==>
              res.0.y == p.y && res.0.velocityY == 0.0 && res.0.isJumping == p.isJumping
    ensures |ps| > 0 && Overlaps(p.Box(), ps[0]) && LandsOn(p, ps[0]) ==> RestsOn(res.0, ps[0])
    decreases |ps|
  {
    if |ps| == 0 then (p, pool)
    else
      var s := PlatformStep(p, pool, invincibility, ps[0]);
      PlatformPass(s.0, s.1, invincibility, ps[1..])
  }

  // -------------------------------------------------------------------- walls

  /** One wall. A side contact always pushes the player out and marks it as
      touching a wall, invincible or not. Otherwise, when not invincible, a
      falling player is put on top of the wall and a rising one under it,
      without the previous-bottom test that platforms use. */
  function WallStep(p: Body, invincibility: int, w: Rect): (q: Body)
    ensures !Overlaps(p.Box(), w) ==> q == p
    ensures Overlaps(p.Box(), w) && FromLeft(p, w) ==>
              q == p.(x := w.x - p.width, touchingWall := true)
    ensures Overlaps(p.Box(), w) && !FromLeft(p, w) && FromRight(p, w) ==>
              q == p.(x := w.x + w.width, touchingWall := true)
    ensures Overlaps(p.Box(), w) && !FromLeft(p, w) && !FromRight(p, w)
            && invincibility == 0 && p.velocityY > 0.0 ==>
              q == p.(y := w.y - p.height, velocityY := 0.0, isJumping := false, onGround := true)
    ensures Overlaps(p.Box(), w) && !FromLeft(p, w) && !FromRight(p, w)
            && invincibility == 0 && p.velocityY < 0.0 ==>
              q == p.(y := w.y + w.height, velocityY := 0.0)
    ensures !FromLeft(p, w) && !FromRight(p, w) && (invincibility != 0 || p.velocityY == 0.0) ==>
              q == p
    ensures invincibility != 0 ==> q.y == p.y && q.velocityY == p.velocityY
    ensures q.Box() != p.Box() ==> !Overlaps(q.Box(), w)
    ensures q.width == p.width && q.height == p.height && q.isWallRunning == p.isWallRunning
    ensures p.onGround ==> q.onGround
    ensures p.touchingWall ==> q.touchingWall
    ensures p.velocityY == 0.0 ==>
              q.y == p.y && q.velocityY == 0.0 && q.isJumping == p.isJumping
  {
    if !Overlaps(p.Box(), w) then p
    else if FromLeft(p, w) then PushLeft(p, w).(touchingWall := true)
    else if FromRight(p, w) then PushRight(p, w).(touchingWall := true)
    else if invincibility == 0 then
      if p.velocityY > 0.0 then Land(p, w)
      else if p.velocityY < 0.0 then BumpHead(p, w)
      else p
    else p
  }

  function WallPass(p: Body, invincibility: int, ws: seq<Rect>): (q: Body)
    ensures invincibility != 0 ==> q.y == p.y && q.velocityY == p.velocityY
    ensures q.width == p.width && q.height == p.height && q.isWallRunning == p.isWallRunning
    ensures p.onGround ==> q.onGround
    ensures p.touchingWall ==> q.touchingWall
    ensures p.velocityY == 0.0 ==>
              q.y == p.y && q.velocityY == 0.0 && q.isJumping == p.isJumping
    ensures |ws| > 0 && Overlaps(p.Box(), ws[0]) && (FromLeft(p, ws[0]) || FromRight(p, ws[0])) ==>
              q.touchingWall
    ensures |ws| > 0 && Overlaps(p.Box(), ws[0]) && !FromLeft(p, ws[0]) && !FromRight(p, ws[0])
            && invincibility == 0 && p.velocityY > 0.0 ==>
              RestsOn(q, ws[0])
    decreases |ws|
  {
    if |ws| == 0 then p else WallPass(WallStep(p, invincibility, ws[0]), invincibility, ws[1..])
  }

  // --------------------------------------------------------------- billboards

  /** One billboard. A side contact pushes the player out, marks it as
      touching a wall, and starts wall-running at once when the player is
      steering into the billboard. Landing on top (and the unreachable
      head-bump) apply only when the player is not invincible. */
  /** A side contact with `b` in which the player steers towards `b`. */
  predicate SteersInto(p: Body, b: Rect, i: Intent)
  {
    (FromLeft(p, b) && i.right) || (!FromLeft(p, b) && FromRight(p, b) && i.left)
  }

  function BillboardStep(p: Body, invincibility: int, b: Rect, i: Intent): (q: Body)
    ensures !Overlaps(p.Box(), b) ==> q == p
    ensures q.isWallRunning == (p.isWallRunning || (Overlaps(p.Box(), b) && SteersInto(p, b, i)))
    ensures Overlaps(p.Box(), b) && FromLeft(p, b) ==>
              q == p.(x := b.x - p.width, touchingWall := true, isWallRunning := q.isWallRunning)
    ensures Overlaps(p.Box(), b) && !FromLeft(p, b) && FromRight(p, b) ==>
              q == p.(x := b.x + b.width, touchingWall := true, isWallRunning := q.isWallRunning)
    ensures !FromLeft(p, b) && !FromRight(p, b) && (invincibility != 0 || !LandsOn(p, b)) ==>
              q == p
    ensures Overlaps(p.Box(), b) && !FromLeft(p, b) && !FromRight(p, b)
            && invincibility == 0 && LandsOn(p, b) ==>
              q == p.(y := b.y - p.height, velocityY := 0.0, isJumping := false, onGround := true)
    ensures invincibility != 0 ==>
              q.y == p.y && q.velocityY == p.velocityY && q.onGround == p.onGround
    ensures q.y == p.y || q.y + q.height == b.y
    ensures q.Box() != p.Box() ==> !Overlaps(q.Box(), b)
    ensures q.width == p.width && q.height == p.height
    ensures p.onGround ==> q.onGround
    ensures p.touchingWall ==> q.touchingWall
    ensures p.velocityY == 0.0 ==>
              q.y == p.y && q.velocityY == 0.0 && q.isJumping == p.isJumping
  {
    if !Overlaps(p.Box(), b) then p
    else if FromLeft(p, b) then
      PushLeft(p, b).(touchingWall := true, isWallRunning := if i.right then true else p.isWallRunning)
    else if FromRight(p, b) then
      PushRight(p, b).(touchingWall := true, isWallRunning := if i.left then true else p.isWallRunning)
    else if invincibility == 0 then
      if LandsOn(p, b) then Land(p, b)
      else if HitsHead(p, b) then BumpHead(p, b)
      else p
    else p
  }

  function BillboardPass(p: Body, invincibility: int, bs: seq<Billboard>, i: Intent): (q: Body)
    ensures invincibility != 0 ==>
              q.y == p.y && q.velocityY == p.velocityY && q.onGround == p.onGround
    ensures q.width == p.width && q.height == p.height
    ensures p.isWallRunning ==> q.isWallRunning
    ensures p.onGround ==> q.onGround
    ensures p.touchingWall ==> q.touchingWall
    ensures p.velocityY == 0.0 ==>
              q.y == p.y && q.velocityY == 0.0 && q.isJumping == p.isJumping
    ensures |bs| > 0 && Overlaps(p.Box(), bs[0].box) && SteersInto(p, bs[0].box, i) ==>
              q.isWallRunning && q.touchingWall
    ensures |bs| > 0 && Overlaps(p.Box(), bs[0].box)
            && !FromLeft(p, bs[0].box) && !FromRight(p, bs[0].box)
            && invincibility == 0 && LandsOn(p, bs[0].box) ==>
              RestsOn(q, bs[0].box)
    decreases |bs|
  {
    if |bs| == 0 then p
    else BillboardPass(BillboardStep(p, invincibility, bs[0].box, i), invincibility, bs[1..], i)
  }

  // ---------------------------------------------------------------- obstacles

  /** One obstacle. A rolling or invincible player passes straight through.
      Otherwise it is landed on from above or pushed out sideways; there is
      no head-bump case. */
  function ObstacleStep(p: Body, isRolling: bool, invincibility: int, o: Rect): (q: Body)
    ensures isRolling || invincibility != 0 || !Overlaps(p.Box(), o) ==> q == p
    ensures Overlaps(p.Box(), o) && !isRolling && invincibility == 0 && LandsOn(p, o) ==>
              q == p.(y := o.y - p.height, velocityY := 0.0, isJumping := false, onGround := true)
    ensures Overlaps(p.Box(), o) && !isRolling && invincibility == 0 && !LandsOn(p, o)
            && FromLeft(p, o) ==>
              q == p.(x := o.x - p.width)
    ensures Overlaps(p.Box(), o) && !isRolling && invincibility == 0 && !LandsOn(p, o)
            && !FromLeft(p, o) && FromRight(p, o) ==>
              q == p.(x := o.x + o.width)
    ensures !LandsOn(p, o) && !FromLeft(p, o) && !FromRight(p, o) ==> q == p
    ensures q.y == p.y || q.y + q.height == o.y
    ensures q.Box() != p.Box() ==> !Overlaps(q.Box(), o)
    ensures OnlyContactChanges(p, q)
    ensures p.onGround ==> q.onGround
    ensures p.velocityY == 0.0 ==>
              q.y == p.y && q.velocityY == 0.0 && q.isJumping == p.isJumping
  {
    if !Overlaps(p.Box(), o) then p
    else if !isRolling && invincibility == 0 then
      if LandsOn(p, o) then Land(p, o)
      else if FromLeft(p, o) then PushLeft(p, o)
      else if FromRight(p, o) then PushRight(p, o)
      else p
    else p
  }

  /** The obstacle pass; with the player rolling or invincible it changes
      nothing at all. */
  function ObstaclePass(p: Body, isRolling: bool, invincibility: int, os: seq<Rect>): (q: Body)
    ensures isRolling || invincibility != 0 ==> q == p
    ensures OnlyContactChanges(p, q)
    ensures p.onGround ==> q.onGround
    ensures p.velocityY == 0.0 ==>
              q.y == p.y && q.velocityY == 0.0 && q.isJumping == p.isJumping
    ensures |os| > 0 && Overlaps(p.Box(), os[0]) && !isRolling && invincibility == 0
            && LandsOn(p, os[0]) ==>
              RestsOn(q, os[0])
    decreases |os|
  {
    if |os| == 0 then p
    else ObstaclePass(ObstacleStep(p, isRolling, invincibility, os[0]), isRolling, invincibility, os[1..])
  }

  // ------------------------------------------------- contacts later in a pass

  /** A pass over `ps` is the pass over its first `k` rectangles followed by
      the pass over the rest. */
  lemma {:induction false} PlatformPassSplit(p: Body, pool: seq<Particle>, invincibility: int,
                                             ps: seq<Rect>, k: nat)
    requires k <= |ps|
    ensures PlatformPass(p, pool, invincibility, ps)
            == PlatformPass(PlatformPass(p, pool, invincibility, ps[..k]).0, pool, invincibility, ps[k..])
    decreases k
  {
    if k == 0 {
      assert ps[..0] == [] && ps[0..] == ps;
    } else {
      var first := PlatformStep(p, pool, invincibility, ps[0]).0;
      PlatformPassSplit(first, pool, invincibility, ps[1..], k - 1);
      assert ps[..k][0] == ps[0] && ps[..k][1..] == ps[1..][..k - 1];
      assert ps[1..][k - 1..] == ps[k..];
    }
  }

  /** Landing on any platform of the list, as the player arrives at it,
      survives the rest of the pass: the player ends on top of it. */
  lemma PlatformLandingHolds(p: Body, pool: seq<Particle>, invincibility: int,
                             ps: seq<Rect>, k: nat)
    requires k < |ps|
    requires var before := PlatformPass(p, pool, invincibility, ps[..k]).0;
             Overlaps(before.Box(), ps[k]) && LandsOn(before, ps[k])
    ensures RestsOn(PlatformPass(p, pool, invincibility, ps).0, ps[k])
  {
    PlatformPassSplit(p, pool, invincibility, ps, k);
    assert ps[k..][0] == ps[k];
  }

  lemma {:induction false} WallPassSplit(p: Body, invincibility: int, ws: seq<Rect>, k: nat)
    requires k <= |ws|
    ensures WallPass(p, invincibility, ws)
            == WallPass(WallPass(p, invincibility, ws[..k]), invincibility, ws[k..])
    decreases k
  {
    if k == 0 {
      assert ws[..0] == [] && ws[0..] == ws;
    } else {
      WallPassSplit(WallStep(p, invincibility, ws[0]), invincibility, ws[1..], k - 1);
      assert ws[..k][0] == ws[0] && ws[..k][1..] == ws[1..][..k - 1];
      assert ws[1..][k - 1..] == ws[k..];
    }
  }

  /** A side contact with any wall of the list leaves the player touching a
      wall, and a landing on one leaves it on top of that wall. */
  lemma WallContactHolds(p: Body, invincibility: int, ws: seq<Rect>, k: nat)
    requires k < |ws|
    requires Overlaps(WallPass(p, invincibility, ws[..k]).Box(), ws[k])
    ensures var before := WallPass(p, invincibility, ws[..k]);
            FromLeft(before, ws[k]) || FromRight(before, ws[k]) ==>
              WallPass(p, invincibility, ws).touchingWall
    ensures var before := WallPass(p, invincibility, ws[..k]);
            !FromLeft(before, ws[k]) && !FromRight(before, ws[k])
            && invincibility == 0 && before.velocityY > 0.0 ==>
              RestsOn(WallPass(p, invincibility, ws), ws[k])
  {
    WallPassSplit(p, invincibility, ws, k);
    assert ws[k..][0] == ws[k];
  }

  lemma {:induction false} BillboardPassSplit(p: Body, invincibility: int, bs: seq<Billboard>,
                                              i: Intent, k: nat)
    requires k <= |bs|
    ensures BillboardPass(p, invincibility, bs, i)
            == BillboardPass(BillboardPass(p, invincibility, bs[..k], i), invincibility, bs[k..], i)
    decreases k
  {
    if k == 0 {
      assert bs[..0] == [] && bs[0..] == bs;
    } else {
      BillboardPassSplit(BillboardStep(p, invincibility, bs[0].box, i), invincibility, bs[1..], i,
                         k - 1);
      assert bs[..k][0] == bs[0] && bs[..k][1..] == bs[1..][..k - 1];
      assert bs[1..][k - 1..] == bs[k..];
    }
  }

  /** Steering into the side of any billboard of the list starts a wall-run
      that lasts to the end of the pass; landing on one leaves the player on
      top of it. */
  lemma BillboardContactHolds(p: Body, invincibility: int, bs: seq<Billboard>, i: Intent, k: nat)
    requires k < |bs|
    requires Overlaps(BillboardPass(p, invincibility, bs[..k], i).Box(), bs[k].box)
    ensures var before := BillboardPass(p, invincibility, bs[..k], i);
            var q := BillboardPass(p, invincibility, bs, i);
            SteersInto(before, bs[k].box, i) ==> q.isWallRunning && q.touchingWall
    ensures var before := BillboardPass(p, invincibility, bs[..k], i);
            !FromLeft(before, bs[k].box) && !FromRight(before, bs[k].box)
            && invincibility == 0 && LandsOn(before, bs[k].box) ==>
              RestsOn(BillboardPass(p, invincibility, bs, i), bs[k].box)
  {
    BillboardPassSplit(p, invincibility, bs, i, k);
    assert bs[k..][0] == bs[k];
  }

  lemma {:induction false} ObstaclePassSplit(p: Body, isRolling: bool, invincibility: int,
                                             os: seq<Rect>, k: nat)
    requires k <= |os|
    ensures ObstaclePass(p, isRolling, invincibility, os)
            == ObstaclePass(ObstaclePass(p, isRolling, invincibility, os[..k]), isRolling,
                            invincibility, os[k..])
    decreases k
  {
    if k == 0 {
      assert os[..0] == [] && os[0..] == os;
    } else {
      ObstaclePassSplit(ObstacleStep(p, isRolling, invincibility, os[0]), isRolling, invincibility,
                        os[1..], k - 1);
      assert os[..k][0] == os[0] && os[..k][1..] == os[1..][..k - 1];
      assert os[1..][k - 1..] == os[k..];
    }
  }

  /** Landing on any obstacle of the list, when neither rolling nor
      invincible, leaves the player on top of it at the end of the pass. */
  lemma ObstacleLandingHolds(p: Body, isRolling: bool, invincibility: int, os: seq<Rect>, k: nat)
    requires k < |os| && !isRolling && invincibility == 0
    requires var before := ObstaclePass(p, isRolling, invincibility, os[..k]);
             Overlaps(before.Box(), os[k]) && LandsOn(before, os[k])
    ensures RestsOn(ObstaclePass(p, isRolling, invincibility, os), os[k])
  {
    ObstaclePassSplit(p, isRolling, invincibility, os, k);
    assert os[k..][0] == os[k];
  }

  // ----------------------------------------------------------------- power-ups

  /** What the power-up pass threads through the level's power-ups: their
      flags, the effect timers, the player's double-jump charge and the
      particle pool. */
  datatype Pickup = Pickup(powerUps: seq<PowerUp>, timers: Timers, hasDoubleJump: bool,
                           particles: seq<Particle>)

  /** The power-up `u` after a player with box `b` has passed over it. */
  function Touched(u: PowerUp, b: Rect): PowerUp
  {
    u.(collected := u.collected || Overlaps(b, u.box))
  }

  /** No power-up in `us` is left for a player with box `b` to pick up. */
  predicate NothingToPick(us: seq<PowerUp>, b: Rect)
  {
    forall k :: 0 <= k < |us| ==> us[k].collected || !Overlaps(b, us[k].box)
  }

  /** One power-up: only an uncollected one the player overlaps is picked
      up; it becomes collected, its effect starts and eight sparkles are
      emitted. */
  function PowerUpStep(b: Rect, t: Timers, hasDoubleJump: bool, pool: seq<Particle>, u: PowerUp)
    : (r: Pickup)
    ensures |r.powerUps| == 1 && r.powerUps[0] == Touched(u, b)
    ensures u.collected || !Overlaps(b, u.box) ==> r == Pickup([u], t, hasDoubleJump, pool)
    ensures !u.collected && Overlaps(b, u.box) ==>
              (r.timers, r.hasDoubleJump) == Activate(t, hasDoubleJump, u.kind)
    ensures NonNegative(t) ==> NonNegative(r.timers)
    ensures |pool| <= MaxParticles ==> |r.particles| <= MaxParticles
  {
    if !u.collected && Overlaps(b, u.box) then
      var a := Activate(t, hasDoubleJump, u.kind);
      Pickup([u.(collected := true)], a.0, a.1, Burst(pool, 8, 20))
    else Pickup([u], t, hasDoubleJump, pool)
  }

  /** The power-up pass. Exactly the power-ups the player overlaps end up
      collected; a pass with nothing left to pick up changes nothing, which
      makes a second overlap with a collected power-up harmless. */
  function PowerUpPass(b: Rect, t: Timers, hasDoubleJump: bool, pool: seq<Particle>,
                       us: seq<PowerUp>): (r: Pickup)
    ensures |r.powerUps| == |us|
    ensures forall k :: 0 <= k < |us| ==> r.powerUps[k] == Touched(us[k], b)
    ensures NothingToPick(us, b) ==> r == Pickup(us, t, hasDoubleJump, pool)
    ensures NonNegative(t) ==> NonNegative(r.timers)
    ensures |pool| <= MaxParticles ==> |r.particles| <= MaxParticles
    decreases |us|
  {
    if |us| == 0 then Pickup([], t, hasDoubleJump, pool)
    else
      var s := PowerUpStep(b, t, hasDoubleJump, pool, us[0]);
      var rest := PowerUpPass(b, s.timers, s.hasDoubleJump, s.particles, us[1..]);
      var tail := us[1..];
      assert forall k :: 1 <= k < |us| ==> tail[k - 1] == us[k];
      var all := s.powerUps + rest.powerUps;
      assert forall k :: 1 <= k < |us| ==> all[k] == rest.powerUps[k - 1];
      assert NothingToPick(us, b) ==> NothingToPick(tail, b) && all == us;
      Pickup(s.powerUps + rest.powerUps, rest.timers, rest.hasDoubleJump, rest.particles)
  }

  /** Running the power-up pass a second time from where the first one
      ended, with the player where it was, changes nothing: no flag, no
      timer, no particle. */
  lemma PickupIdempotent(b: Rect, t: Timers, hasDoubleJump: bool, pool: seq<Particle>,
                         us: seq<PowerUp>)
    ensures var r := PowerUpPass(b, t, hasDoubleJump, pool, us);
            PowerUpPass(b, r.timers, r.hasDoubleJump, r.particles, r.powerUps) == r
  {
    var r := PowerUpPass(b, t, hasDoubleJump, pool, us);
    assert NothingToPick(r.powerUps, b);
  }

  /** The player with box `b` picks up `u`. */
  predicate Picked(u: PowerUp, b: Rect)
  {
    !u.collected && Overlaps(b, u.box)
  }

  /** Some power-up of kind `kind` in `us` is picked up. */
  predicate PicksKind(us: seq<PowerUp>, b: Rect, kind: Kind)
  {
    exists j :: 0 <= j < |us| && Picked(us[j], b) && us[j].kind == kind
  }

  lemma PicksKindSplit(us: seq<PowerUp>, b: Rect, kind: Kind)
    requires |us| > 0
    ensures PicksKind(us, b, kind)
            <==> (Picked(us[0], b) && us[0].kind == kind) || PicksKind(us[1..], b, kind)
  {
    if PicksKind(us, b, kind) && !(Picked(us[0], b) && us[0].kind == kind) {
      var j :| 0 <= j < |us| && Picked(us[j], b) && us[j].kind == kind;
      assert us[1..][j - 1] == us[j];
    }
    if PicksKind(us[1..], b, kind) {
      var j :| 0 <= j < |us[1..]| && Picked(us[1..][j], b) && us[1..][j].kind == kind;
      assert us[j + 1] == us[1..][j];
    }
  }

  lemma PickupStepTimer(b: Rect, t: Timers, hasDoubleJump: bool, pool: seq<Particle>,
                        u: PowerUp, kind: Kind)
    ensures Remaining(PowerUpStep(b, t, hasDoubleJump, pool, u).timers, kind)
            == (if Picked(u, b) && u.kind == kind then Duration(kind) else Remaining(t, kind))
  {
  }

  /** Each effect timer ends the power-up pass at its full duration exactly
      when a power-up of its kind is picked up, and as it was otherwise. */
  lemma {:induction false} PickupTimer(b: Rect, t: Timers, hasDoubleJump: bool,
                                       pool: seq<Particle>, us: seq<PowerUp>, kind: Kind)
    ensures Remaining(PowerUpPass(b, t, hasDoubleJump, pool, us).timers, kind)
            == (if PicksKind(us, b, kind) then Duration(kind) else Remaining(t, kind))
    decreases |us|
  {
    if |us| > 0 {
      var s := PowerUpStep(b, t, hasDoubleJump, pool, us[0]);
      PickupTimer(b, s.timers, s.hasDoubleJump, s.particles, us[1..], kind);
      PickupStepTimer(b, t, hasDoubleJump, pool, us[0], kind);
      PicksKindSplit(us, b, kind);
    }
  }

  /** The double-jump charge ends the power-up pass granted exactly when it
      was held or a double-jump power-up is picked up. */
  lemma {:induction false} PickupCharge(b: Rect, t: Timers, hasDoubleJump: bool,
                                        pool: seq<Particle>, us: seq<PowerUp>)
    ensures PowerUpPass(b, t, hasDoubleJump, pool, us).hasDoubleJump
            == (hasDoubleJump || PicksKind(us, b, DoubleJump))
    decreases |us|
  {
    if |us| > 0 {
      var s := PowerUpStep(b, t, hasDoubleJump, pool, us[0]);
      PickupCharge(b, s.timers, s.hasDoubleJump, s.particles, us[1..]);
      PicksKindSplit(us, b, DoubleJump);
    }
  }

  /** What the power-up pass does to the effects, timer by timer. */
  lemma PickupEffects(b: Rect, t: Timers, hasDoubleJump: bool, pool: seq<Particle>,
                      us: seq<PowerUp>)
    ensures var r := PowerUpPass(b, t, hasDoubleJump, pool, us);
            && r.timers.speedBoost
               == (if PicksKind(us, b, Speed) then SpeedBoostDuration else t.speedBoost)
            && r.timers.doubleJump
               == (if PicksKind(us, b, DoubleJump) then DoubleJumpDuration else t.doubleJump)
            && r.timers.invincibility
               == (if PicksKind(us, b, Invincibility) then InvincibilityDuration
                   else t.invincibility)
            && r.hasDoubleJump == (hasDoubleJump || PicksKind(us, b, DoubleJump))
  {
    PickupTimer(b, t, hasDoubleJump, pool, us, Speed);
    PickupTimer(b, t, hasDoubleJump, pool, us, DoubleJump);
    PickupTimer(b, t, hasDoubleJump, pool, us, Invincibility);
    PickupCharge(b, t, hasDoubleJump, pool, us);
  }

  // --------------------------------------------------------------- checkpoints

  /** `cs[k]` is the last checkpoint in `cs` that box `b` overlaps. */
  predicate LastTouched(b: Rect, cs: seq<Rect>, k: int)
  {
    && 0 <= k < |cs|
    && Overlaps(b, cs[k])
    && forall j :: k < j < |cs| ==> !Overlaps(b, cs[j])
  }

  /** The checkpoint pass over a player with box `b` whose respawn point is
      `at`: the respawn point becomes the position of the last checkpoint
      the player touches, and stays put if it touches none. */
  function CheckpointPass(b: Rect, at: (real, real), cs: seq<Rect>): (r: (real, real))
    ensures (forall k :: 0 <= k < |cs| ==> !Overlaps(b, cs[k])) ==> r == at
    ensures forall k :: LastTouched(b, cs, k) ==> r == (cs[k].x, cs[k].y)
    decreases |cs|
  {
    if |cs| == 0 then at
    else
      var next := if Overlaps(b, cs[0]) then (cs[0].x, cs[0].y) else at;
      var rest := cs[1..];
      assert forall k :: 0 < k < |cs| ==> rest[k - 1] == cs[k];
      assert forall k :: LastTouched(b, cs, k) && k > 0 ==> LastTouched(b, rest, k - 1);
      assert LastTouched(b, cs, 0) ==> forall j :: 0 <= j < |rest| ==> !Overlaps(b, rest[j]);
      CheckpointPass(b, next, rest)
  }

  // --------------------------------------------------------------- canvas clamp

  /** Keeps the box inside the canvas horizontally and below its top edge;
      there is no bottom clamp, since falling out is how a respawn is
      triggered. */
  function Clamp(b: Rect, canvasWidth: real): (r: Rect)
    ensures r.width == b.width && r.height == b.height
    ensures r.y >= 0.0 && (b.y >= 0.0 ==> r.y == b.y)
    ensures b.y < 0.0 ==> r.y == 0.0
    ensures r.x + r.width <= canvasWidth
    ensures b.width <= canvasWidth ==> r.x >= 0.0
    ensures b.x + b.width > canvasWidth ==> r.x == canvasWidth - b.width
    ensures b.x < 0.0 ==> r.x == (if b.width <= canvasWidth then 0.0 else canvasWidth - b.width)
    ensures 0.0 <= b.x && b.x + b.width <= canvasWidth ==> r.x == b.x
  {
    var x1 := if b.x < 0.0 then 0.0 else b.x;
    var x2 := if x1 + b.width > canvasWidth then canvasWidth - b.width else x1;
    b.(x := x2, y := if b.y < 0.0 then 0.0 else b.y)
  }

  // -------------------------------------------------------------- the resolver

  /** What the resolver hands back to the frame update. */
  datatype Resolved = Resolved(player: Player, timers: Timers, powerUps: seq<PowerUp>,
                               particles: seq<Particle>)

  /** The player's fields that the solid passes work on. */
  function BodyOf(p: Player): Body
  {
    Body(p.x, p.y, p.width, p.height, p.velocityY, p.isJumping, p.onGround,
         p.touchingWall, p.isWallRunning)
  }

  /** The four solid passes in the game's order: platforms, walls,
      billboards, obstacles. Only the platform pass may emit particles. */
  function SolidPasses(p: Player, pool: seq<Particle>, invincibility: int, lv: Level, i: Intent)
    : (s: (Body, seq<Particle>))
    ensures s.1 == pool
    ensures s.0.width == p.width && s.0.height == p.height
    ensures p.onGround ==> s.0.onGround
    ensures p.touchingWall ==> s.0.touchingWall
  {
    var a := PlatformPass(BodyOf(p), pool, invincibility, lv.platforms);
    var b := WallPass(a.0, invincibility, lv.walls);
    var c := BillboardPass(b, invincibility, lv.billboards, i);
    (ObstaclePass(c, p.isRolling, invincibility, lv.obstacles), a.1)
  }

  /** All passes in their fixed order. The invincibility timer is read once,
      before any power-up of this frame is picked up; the power-up and
      checkpoint passes see the player where the solid passes left it, and
      the clamp comes last. */
  function CheckCollisions(p: Player, t: Timers, pool: seq<Particle>, lv: Level, i: Intent,
                           canvasWidth: real): (r: Resolved)
    ensures r.player.y >= 0.0 && r.player.x + r.player.width <= canvasWidth
    ensures p.width <= canvasWidth ==> r.player.x >= 0.0
    ensures var s := SolidPasses(p, pool, t.invincibility, lv, i);
            && r.player.Box() == Clamp(s.0.Box(), canvasWidth)
            && r.player.velocityY == s.0.velocityY && r.player.isJumping == s.0.isJumping
            && r.player.onGround == s.0.onGround && r.player.touchingWall == s.0.touchingWall
            && r.player.isWallRunning == s.0.isWallRunning
    ensures var s := SolidPasses(p, pool, t.invincibility, lv, i);
            var pick := PowerUpPass(s.0.Box(), t, p.hasDoubleJump, s.1, lv.powerUps);
            && r.timers == pick.timers && r.player.hasDoubleJump == pick.hasDoubleJump
            && r.powerUps == pick.powerUps && r.particles == pick.particles
    ensures var s := SolidPasses(p, pool, t.invincibility, lv, i);
            (r.player.checkpointX, r.player.checkpointY)
            == CheckpointPass(s.0.Box(), (p.checkpointX, p.checkpointY), lv.checkpoints)
    ensures |r.powerUps| == |lv.powerUps|
    ensures forall k :: 0 <= k < |lv.powerUps| ==>
              && r.powerUps[k].box == lv.powerUps[k].box
              && r.powerUps[k].kind == lv.powerUps[k].kind
              && (lv.powerUps[k].collected ==> r.powerUps[k].collected)
    ensures r.player.width == p.width && r.player.height == p.height
    ensures r.player.isRolling == p.isRolling && r.player.rollTimer == p.rollTimer
    ensures r.player.velocityX == p.velocityX && r.player.facingRight == p.facingRight
    ensures p.onGround ==> r.player.onGround
    ensures p.touchingWall ==> r.player.touchingWall
    ensures NonNegative(t) ==> NonNegative(r.timers)
    ensures |pool| <= MaxParticles ==> |r.particles| <= MaxParticles
    ensures r.player.animationFrame == p.animationFrame
    ensures r.player.animationTimer == p.animationTimer
    ensures r.player.animationState == p.animationState && r.player.isSprinting == p.isSprinting
  {
    var s := SolidPasses(p, pool, t.invincibility, lv, i);
    var d := s.0;
    var e := PowerUpPass(d.Box(), t, p.hasDoubleJump, s.1, lv.powerUps);
    var at := CheckpointPass(d.Box(), (p.checkpointX, p.checkpointY), lv.checkpoints);
    var box := Clamp(d.Box(), canvasWidth);
    var q := p.(x := box.x, y := box.y, velocityY := d.velocityY, isJumping := d.isJumping,
                onGround := d.onGround, touchingWall := d.touchingWall,
                isWallRunning := d.isWallRunning, hasDoubleJump := e.hasDoubleJump,
                checkpointX := at.0, checkpointY := at.1);
    Resolved(q, e.timers, e.powerUps, e.particles)
  }
}

=== FILE: geometry.dfy ===
/** Axis-aligned rectangles and the overlap test that every collision in the
    game is built on. The y axis points down the screen, so a rectangle's top
    edge is `y` and its bottom edge is `y + height`. */
module Geometry {

  /** The shape shared by the player and every piece of level geometry. */
  datatype Rect = Rect(x: real, y: real, width: real, height: real)

  /** True iff the two boxes intersect with positive area: all four half-plane
      tests are strict, so boxes that only share an edge do not overlap. */
  predicate Overlaps(a: Rect, b: Rect)
  {
    && a.x < b.x + b.width
    && a.x + a.width > b.x
    && a.y < b.y + b.height
    && a.y + a.height > b.y
  }

  /** The point (px, py) lies strictly inside `r`. */
  predicate Inside(r: Rect, px: real, py: real)
  {
    r.x < px < r.x + r.width && r.y < py < r.y + r.height
  }

  function Max(a: real, b: real): real { if a < b then b else a }

  function Min(a: real, b: real): real { if a < b then a else b }

  /** A box of positive area; every box in the game is one. */
  predicate Solid(r: Rect) { r.width > 0.0 && r.height > 0.0 }

  /** For boxes of positive area the overlap test agrees with its geometric
      meaning: the two boxes share an interior point. */
  lemma OverlapsIffSharedPoint(a: Rect, b: Rect)
    requires Solid(a) && Solid(b)
    ensures Overlaps(a, b) <==> exists px, py :: Inside(a, px, py) && Inside(b, px, py)
  {
    if Overlaps(a, b) {
      var px := (Max(a.x, b.x) + Min(a.x + a.width, b.x + b.width)) / 2.0;
      var py := (Max(a.y, b.y) + Min(a.y + a.height, b.y + b.height)) / 2.0;
      assert Inside(a, px, py) && Inside(b, px, py);
    }
  }

  /** Overlap does not depend on which box is the player. */
  lemma OverlapsSymmetric(a: Rect, b: Rect)
    ensures Overlaps(a, b) <==> Overlaps(b, a)
  {
  }

  /** Every box of positive area overlaps itself. */
  lemma SolidOverlapsItself(a: Rect)
    requires Solid(a)
    ensures Overlaps(a, a)
  {
  }

  /** Boxes that only touch along an edge, or lie apart, do not overlap. */
  lemma SeparatedDoNotOverlap(a: Rect, b: Rect)
    requires a.x + a.width <= b.x || b.x + b.width <= a.x
          || a.y + a.height <= b.y || b.y + b.height <= a.y
    ensures !Overlaps(a, b)
  {
  }
}

=== FILE: input.dfy ===
/** The input step of a frame: the player's logical intent becomes
    horizontal speed, jumps, wall-jumps and rolls. Sounds are left out. */
module Input {
  import opened PowerUps
  import opened PlayerState

  /** The horizontal speed the player runs at: faster while sprinting or
      under a speed boost. */
  function RunSpeed(sprinting: bool, t: Timers): real
  {
    if sprinting || t.speedBoost > 0 then MoveSpeed * SprintMultiplier else MoveSpeed
  }

  /** Sprint flag and horizontal movement. Right is handled after left, so
      with both held the player runs right. */
  function Steer(p: Player, t: Timers, i: Intent): Player
  {
    var speed := RunSpeed(i.sprint, t);
    p.(isSprinting := i.sprint,
       velocityX := if i.right then speed else if i.left then -speed else 0.0,
       facingRight := if i.right then true else if i.left then false else p.facingRight)
  }

  /** The jump gate: jump held, not already jumping, and either standing on
      something, a double-jump effect running, or a double-jump charge. */
  predicate JumpFires(p: Player, t: Timers, i: Intent)
  {
    i.jump && !p.isJumping && (p.onGround || t.doubleJump > 0 || p.hasDoubleJump)
  }

  /** The jump. Whatever the case, the double-jump charge is gone afterwards.
      The airborne test that decides whether the double-jump timer is also
      cleared reads `onGround` after the jump has cleared it, so it always
      holds: a jump taken without a charge clears the timer, even from the
      ground. */
  function Jump(p: Player, t: Timers, i: Intent): (Player, Timers)
  {
    var fires := JumpFires(p, t, i);
    var q := p.(velocityY := if fires then JumpForce else p.velocityY,
                isJumping := if fires then true else p.isJumping,
                onGround := if fires then false else p.onGround);
    var clearsTimer := fires && !q.onGround && !q.hasDoubleJump;
    (q.(hasDoubleJump := if fires then false else p.hasDoubleJump),
     t.(doubleJump := if clearsTimer then 0 else t.doubleJump))
  }

  /** The wall-jump gate, tested after the jump: jump held, touching a wall
      and not on the ground. */
  predicate WallJumpFires(p: Player, i: Intent)
  {
    i.jump && p.touchingWall && !p.onGround
  }

  /** The wall-jump: a shorter jump away from the wall the player faces,
      turning round, and a slow-motion window. */
  function WallJump(p: Player, slowMotion: bool, i: Intent): (Player, bool)
  {
    var fires := WallJumpFires(p, i);
    var away := if p.facingRight then -WallJumpHorizontalForce else WallJumpHorizontalForce;
    (p.(velocityY := if fires then JumpForce * 0.8 else p.velocityY,
        velocityX := if fires then away else p.velocityX,
        isWallRunning := if fires then false else p.isWallRunning,
        facingRight := if fires then !p.facingRight else p.facingRight),
     fires || slowMotion)
  }

  predicate RollStarts(p: Player, i: Intent)
  {
    i.roll && p.onGround && !p.isRolling
  }

  /** Starting a roll: the player ducks to rolling height for a fixed number
      of frames. */
  function StartRoll(p: Player, i: Intent): Player
  {
    var starts := RollStarts(p, i);
    p.(isRolling := if starts then true else p.isRolling,
       rollTimer := if starts then RollDuration else p.rollTimer,
       height := if starts then RollingHeight else p.height)
  }

  /** One frame of a running roll; when the timer runs out the player stands
      up again. */
  function RollCountdown(p: Player): (q: Player)
    ensures p.isRolling ==> q.rollTimer == p.rollTimer - 1
    ensures p.isRolling ==> (q.isRolling <==> p.rollTimer > 1)
    ensures p.isRolling && !q.isRolling ==> q.height == StandingHeight
    ensures !p.isRolling ==> q == p
  {
    var timer := if p.isRolling then p.rollTimer - 1 else p.rollTimer;
    var ends := p.isRolling && timer <= 0;
    p.(rollTimer := timer,
       isRolling := if ends then false else p.isRolling,
       height := if ends then StandingHeight else p.height)
  }

  /** `n` frames of roll countdown. */
  function RollFrames(p: Player, n: nat): Player
    decreases n
  {
    if n == 0 then p else RollFrames(RollCountdown(p), n - 1)
  }

  /** A roll with `k` frames left keeps the player short for `k - 1` more
      frames and stands it up on the `k`-th. */
  lemma {:induction false} RollLastsItsTimer(p: Player, n: nat)
    requires p.isRolling && p.height == RollingHeight && p.rollTimer > 0
    ensures n < p.rollTimer ==>
              && RollFrames(p, n).isRolling
              && RollFrames(p, n).rollTimer == p.rollTimer - n
              && RollFrames(p, n).height == RollingHeight
    ensures n == p.rollTimer ==>
              !RollFrames(p, n).isRolling && RollFrames(p, n).height == StandingHeight
    decreases n
  {
    if n > 0 && p.rollTimer > 1 {
      RollLastsItsTimer(RollCountdown(p), n - 1);
    }
  }

  /** Whether the wall-jump fires in the frame, read off the player before
      input: the jump clears `onGround`, so a jump taken next to a wall lets
      the wall-jump fire too. */
  predicate WallJumpFollows(p: Player, t: Timers, i: Intent)
  {
    i.jump && p.touchingWall && (!p.onGround || JumpFires(p, t, i))
  }

  /** The side the player faces after steering and before any wall-jump:
      right wins when both directions are held, and with neither the facing
      is kept. */
  predicate SteeredRight(p: Player, i: Intent)
  {
    i.right || (!i.left && p.facingRight)
  }

  /** What the input step produces. */
  datatype Controlled = Controlled(player: Player, timers: Timers, slowMotion: bool)

  /** The whole input step, in the game's order: steer, jump, wall-jump,
      start a roll, count the roll down. */
  function HandleInput(p: Player, t: Timers, slowMotion: bool, i: Intent): (r: Controlled)
    ensures r.player.isSprinting == i.sprint
    // the jump
    ensures JumpFires(p, t, i) ==>
              && r.player.isJumping && !r.player.onGround && !r.player.hasDoubleJump
              && r.timers.doubleJump == (if p.hasDoubleJump then t.doubleJump else 0)
    ensures JumpFires(p, t, i) && !p.touchingWall ==> r.player.velocityY == JumpForce
    ensures !JumpFires(p, t, i) ==>
              && r.player.isJumping == p.isJumping && r.player.onGround == p.onGround
              && r.player.hasDoubleJump == p.hasDoubleJump && r.timers == t
    ensures r.timers == t.(doubleJump := r.timers.doubleJump)
    // the wall-jump, which also follows a jump taken next to a wall
    ensures WallJumpFollows(p, t, i) ==>
              && r.player.velocityY == JumpForce * 0.8
              && r.player.velocityX == (if r.player.facingRight then WallJumpHorizontalForce
                                        else -WallJumpHorizontalForce)
              && !r.player.isWallRunning && r.slowMotion
    ensures !WallJumpFollows(p, t, i) ==>
              && r.player.velocityX == (if i.right then RunSpeed(i.sprint, t)
                                        else if i.left then -RunSpeed(i.sprint, t) else 0.0)
              && r.player.isWallRunning == p.isWallRunning
              && r.slowMotion == slowMotion
    ensures !JumpFires(p, t, i) && !(i.jump && p.touchingWall && !p.onGround) ==>
              r.player.velocityY == p.velocityY
    // facing: steering sets it, a wall-jump turns the player round
    ensures r.player.facingRight == (SteeredRight(p, i) != WallJumpFollows(p, t, i))
    // the roll
    ensures RollStarts(p, i) && !JumpFires(p, t, i) ==>
              r.player.isRolling && r.player.rollTimer == RollDuration - 1
              && r.player.height == RollingHeight
    ensures p.isRolling ==>
              && r.player.rollTimer == p.rollTimer - 1
              && (r.player.isRolling <==> p.rollTimer > 1)
              && (!r.player.isRolling ==> r.player.height == StandingHeight)
    ensures !p.isRolling && !(RollStarts(p, i) && !JumpFires(p, t, i)) ==>
              && !r.player.isRolling && r.player.height == p.height
              && r.player.rollTimer == p.rollTimer
    ensures RollShape(p) ==> RollShape(r.player)
    // what the input step never touches
    ensures r.player.x == p.x && r.player.y == p.y && r.player.width == p.width
    ensures r.player.touchingWall == p.touchingWall
    ensures r.player.animationFrame == p.animationFrame
    ensures r.player.animationTimer == p.animationTimer
    ensures r.player.animationState == p.animationState
    ensures r.player.checkpointX == p.checkpointX && r.player.checkpointY == p.checkpointY
  {
    var steered := Steer(p, t, i);
    var jumped := Jump(steered, t, i);
    var walled := WallJump(jumped.0, slowMotion, i);
    Controlled(RollCountdown(StartRoll(walled.0, i)), jumped.1, walled.1)
  }
}

=== FILE: leaderboard.dfy ===
/** The leaderboard: completion times kept sorted fastest first and capped
    at a hundred entries, and the best time of a level read back from it.
    Persisting the board is left out. */
module Leaderboard {
  const MaxEntries: nat := 100

  /** One completion: the level's index, the time taken in seconds, and the
      date as the browser formats it. */
  datatype Entry = Entry(level: int, time: real, date: string)

  datatype Option<T> = None | Some(value: T)

  predicate SortedByTime(s: seq<Entry>)
  {
    forall i, j :: 0 <= i < j < |s| ==> s[i].time <= s[j].time
  }

  /** Where a stable sort of the board with `e` appended puts `e`: after the
      trailing run of entries strictly slower than it, scanning from the
      back. */
  function InsertionPoint(s: seq<Entry>, e: Entry): (k: nat)
    ensures k <= |s|
    ensures k > 0 ==> s[k - 1].time <= e.time
    ensures forall i :: k <= i < |s| ==> s[i].time > e.time
    decreases |s|
  {
    if |s| == 0 then 0
    else if e.time < s[|s| - 1].time then InsertionPoint(s[..|s| - 1], e)
    else |s|
  }

  /** One step of the insertion sort: `e` placed at its insertion point. */
  function Insert(s: seq<Entry>, e: Entry): (r: seq<Entry>)
    ensures |r| == |s| + 1
  {
    var k := InsertionPoint(s, e);
    s[..k] + [e] + s[k..]
  }

  /** On a sorted board the new entry lands after every entry not slower
      than it and before every slower one, as a stable sort places it. */
  lemma InsertPlacesAfterTies(s: seq<Entry>, e: Entry)
    requires SortedByTime(s)
    ensures var k := InsertionPoint(s, e);
            && (forall i :: 0 <= i < k ==> s[i].time <= e.time)
            && (forall i :: k <= i < |s| ==> s[i].time > e.time)
  {
    var k := InsertionPoint(s, e);
    assert forall i :: 0 <= i < k ==> s[i].time <= s[k - 1].time;
  }

  /** Inserting into a sorted board keeps it sorted. */
  lemma InsertKeepsSorted(s: seq<Entry>, e: Entry)
    requires SortedByTime(s)
    ensures SortedByTime(Insert(s, e))
  {
    InsertPlacesAfterTies(s, e);
    var k := InsertionPoint(s, e);
    var r := Insert(s, e);
    Splice(s, e, k);
    forall i, j | 0 <= i < j < |r|
      ensures r[i].time <= r[j].time
    {
      var a := if i < k then s[i] else if i == k then e else s[i - 1];
      var b := if j < k then s[j] else if j == k then e else s[j - 1];
      assert r[i] == a && r[j] == b;
    }
  }

  /** The entries of `s` with `e` spliced in at `k`, position by position. */
  lemma Splice(s: seq<Entry>, e: Entry, k: nat)
    requires k <= |s|
    ensures var r := s[..k] + [e] + s[k..];
            && |r| == |s| + 1
            && (forall i :: 0 <= i < k ==> r[i] == s[i])
            && r[k] == e
            && (forall i :: k < i <= |s| ==> r[i] == s[i - 1])
  {
  }

  /** Insertion adds exactly the new entry and loses none. */
  lemma InsertIsPermutation(s: seq<Entry>, e: Entry)
    ensures multiset(Insert(s, e)) == multiset(s) + multiset{e}
  {
    var k := InsertionPoint(s, e);
    assert s == s[..k] + s[k..];
  }

  /** A stable sort by time: insertion sort, one entry at a time from the
      front. */
  function SortByTime(s: seq<Entry>): (r: seq<Entry>)
    ensures SortedByTime(r)
    ensures multiset(r) == multiset(s)
    ensures |r| == |s|
    decreases |s|
  {
    if |s| == 0 then []
    else
      assert s == s[..|s| - 1] + [s[|s| - 1]];
      InsertIsPermutation(SortByTime(s[..|s| - 1]), s[|s| - 1]);
      InsertKeepsSorted(SortByTime(s[..|s| - 1]), s[|s| - 1]);
      Insert(SortByTime(s[..|s| - 1]), s[|s| - 1])
  }

  /** Sorting a board that is already sorted leaves it as it is. */
  lemma {:induction false} SortingSortedIsIdentity(s: seq<Entry>)
    requires SortedByTime(s)
    ensures SortByTime(s) == s
    decreases |s|
  {
    if |s| > 0 {
      SortedInit(s);
      SortingSortedIsIdentity(s[..|s| - 1]);
      if |s| > 1 {
        assert s[|s| - 2].time <= s[|s| - 1].time;
      }
      IdentityStep(s);
    }
  }

  /** The inductive step: when the front of the board sorts to itself and
      the last entry is not faster than the one before it, the whole board
      sorts to itself. */
  lemma IdentityStep(s: seq<Entry>)
    requires |s| > 0 && SortByTime(s[..|s| - 1]) == s[..|s| - 1]
    requires |s| == 1 || s[|s| - 2].time <= s[|s| - 1].time
    ensures SortByTime(s) == s
  {
    var init, last := s[..|s| - 1], s[|s| - 1];
    SortByTimeStep(s);
    if |init| > 0 {
      assert init[|init| - 1] == s[|s| - 2];
    }
    InsertAtEnd(init, last);
    assert s == init + [last];
  }

  /** The last step of the insertion sort. */
  lemma SortByTimeStep(s: seq<Entry>)
    requires |s| > 0
    ensures SortByTime(s) == Insert(SortByTime(s[..|s| - 1]), s[|s| - 1])
  {
  }

  /** An entry not faster than the board's last one goes at the end. */
  lemma InsertAtEnd(s: seq<Entry>, e: Entry)
    requires |s| == 0 || s[|s| - 1].time <= e.time
    ensures Insert(s, e) == s + [e]
  {
    assert InsertionPoint(s, e) == |s|;
    assert s[..|s|] == s;
  }

  /** Dropping the slowest entry of a sorted board leaves it sorted, and
      that entry is not faster than any other. */
  lemma SortedInit(s: seq<Entry>)
    requires SortedByTime(s) && |s| > 0
    ensures SortedByTime(s[..|s| - 1])
    ensures forall i :: 0 <= i < |s| ==> s[i].time <= s[|s| - 1].time
  {
  }

  /** Records a completion: appends it, sorts by time and keeps the first
      hundred. */
  function Record(board: seq<Entry>, e: Entry): (r: seq<Entry>)
    ensures SortedByTime(r)
    ensures |r| == if |board| + 1 > MaxEntries then MaxEntries else |board| + 1
    ensures multiset(r) <= multiset(board) + multiset{e}
  {
    var sorted := SortByTime(board + [e]);
    if |sorted| > MaxEntries then
      assert sorted == sorted[..MaxEntries] + sorted[MaxEntries..];
      sorted[..MaxEntries]
    else sorted
  }

  /** The cap drops only the slowest times: every entry that was not kept is
      at least as slow as every entry that was. */
  lemma RecordKeepsFastest(board: seq<Entry>, e: Entry, x: Entry, y: Entry)
    requires x in multiset(board + [e]) - multiset(Record(board, e))
    requires y in Record(board, e)
    ensures y.time <= x.time
  {
    var sorted := SortByTime(board + [e]);
    if |sorted| > MaxEntries {
      assert Record(board, e) == sorted[..MaxEntries];
      CapKeepsFastest(sorted, x, y);
    }
  }

  /** Cutting a sorted board after its first hundred entries drops nothing
      faster than what it keeps. */
  lemma CapKeepsFastest(sorted: seq<Entry>, x: Entry, y: Entry)
    requires SortedByTime(sorted) && |sorted| > MaxEntries
    requires x in multiset(sorted) - multiset(sorted[..MaxEntries])
    requires y in sorted[..MaxEntries]
    ensures y.time <= x.time
  {
    var kept, dropped := sorted[..MaxEntries], sorted[MaxEntries..];
    assert sorted == kept + dropped;
    assert multiset(sorted) == multiset(kept) + multiset(dropped);
    assert x in multiset(dropped);
    var j :| 0 <= j < |dropped| && dropped[j] == x;
    var i :| 0 <= i < |kept| && kept[i] == y;
    assert sorted[i] == y && sorted[MaxEntries + j] == x;
  }

  /** On a board that is already sorted, recording is an insertion followed
      by the cap. */
  lemma RecordOnSortedBoard(board: seq<Entry>, e: Entry)
    requires SortedByTime(board)
    ensures var ins := Insert(board, e);
            Record(board, e) == if |ins| > MaxEntries then ins[..MaxEntries] else ins
  {
    var init := (board + [e])[..|board|];
    assert init == board;
    SortingSortedIsIdentity(board);
  }

  /** The best time recorded for a level, or nothing when the level has no
      entry. */
  function BestTime(board: seq<Entry>, level: int): (r: Option<real>)
    ensures r.None? <==> forall i :: 0 <= i < |board| ==> board[i].level != level
    ensures r.Some? ==> exists i :: 0 <= i < |board| && board[i].level == level
                                    && board[i].time == r.value
    ensures r.Some? ==> forall i :: 0 <= i < |board| && board[i].level == level
                                    ==> r.value <= board[i].time
    decreases |board|
  {
    if |board| == 0 then None
    else
      var rest := BestTime(board[1..], level);
      assert forall i :: 1 <= i < |board| ==> board[1..][i - 1] == board[i];
      if board[0].level != level then rest
      else if rest.None? then Some(board[0].time)
      else if board[0].time <= rest.value then Some(board[0].time)
      else rest
  }

  /** On a sorted board the best time of a level is the time of the level's
      first entry. */
  lemma BestTimeIsFirstOnSortedBoard(board: seq<Entry>, level: int, k: nat)
    requires SortedByTime(board)
    requires k < |board| && board[k].level == level
    requires forall i :: 0 <= i < k ==> board[i].level != level
    ensures BestTime(board, level) == Some(board[k].time)
  {
  }
}

=== FILE: levels.dfy ===
/** The geometry of a level. A level is a template; the game plays on a
    working copy of it, in which only the power-ups' `collected` flags ever
    change. */
module Levels {
  import opened Geometry
  import opened PowerUps

  /** A labelled sign that acts as a thin wall the player can run along. */
  datatype Billboard = Billboard(box: Rect, text: string)

  datatype PowerUp = PowerUp(box: Rect, kind: Kind, collected: bool)

  datatype Level = Level(
    name: string,
    platforms: seq<Rect>,
    walls: seq<Rect>,
    billboards: seq<Billboard>,
    obstacles: seq<Rect>,
    powerUps: seq<PowerUp>,
    checkpoints: seq<Rect>,
    goal: Rect,
    startX: real,
    startY: real)
}

=== FILE: particles.dfy ===
/** The particle pool, reduced to what the simulation depends on: the pool's
    capacity and each particle's remaining lifetime. Particle positions,
    velocities and colours are cosmetic and are not modelled. */
module Particles {

  const MaxParticles: nat := 100

  datatype Particle = Particle(lifetime: int, maxLifetime: int)

  /** Adds one particle with the given lifetime unless the pool is full, in
      which case the particle is silently dropped. */
  function AddParticle(pool: seq<Particle>, lifetime: int): (r: seq<Particle>)
    ensures |pool| < MaxParticles ==> r == pool + [Particle(lifetime, lifetime)]
    ensures |pool| >= MaxParticles ==> r == pool
    ensures |pool| <= MaxParticles ==> |r| <= MaxParticles
  {
    if |pool| < MaxParticles then pool + [Particle(lifetime, lifetime)] else pool
  }

  /** `n` calls of `AddParticle`, as an emitter loop does. The pool keeps its
      old particles in order, gains as many new ones as fit below the cap, and
      every new particle starts at full lifetime. */
  function Burst(pool: seq<Particle>, n: int, lifetime: int): (r: seq<Particle>)
    ensures |pool| >= MaxParticles ==> r == pool
    ensures |pool| < MaxParticles ==>
              |r| == if n <= 0 then |pool| else if |pool| + n < MaxParticles then |pool| + n else MaxParticles
    ensures |pool| <= |r| && r[..|pool|] == pool
    ensures forall k :: |pool| <= k < |r| ==> r[k] == Particle(lifetime, lifetime)
    decreases n
  {
    if n <= 0 then pool else Burst(AddParticle(pool, lifetime), n - 1, lifetime)
  }

  /** What one frame leaves of a pool: every particle loses one unit of
      lifetime, those that reach zero are removed, the rest keep their order. */
  function Aged(pool: seq<Particle>): seq<Particle>
  {
    if |pool| == 0 then []
    else
      var p := pool[0].(lifetime := pool[0].lifetime - 1);
      (if p.lifetime <= 0 then [] else [p]) + Aged(pool[1..])
  }

  /** A particle of `pool` that a frame keeps: it had more than one frame of
      lifetime left, and `q` is it with one frame less. */
  predicate SurvivorOf(pool: seq<Particle>, q: Particle)
  {
    exists k :: 0 <= k < |pool| && pool[k].lifetime > 1
                && q == pool[k].(lifetime := pool[k].lifetime - 1)
  }

  /** What a frame does to the pool: it never grows, every survivor is still
      alive, and its particles are exactly those with more than one frame
      left, each one frame older. */
  lemma {:induction false} AgedShrinks(pool: seq<Particle>)
    ensures |Aged(pool)| <= |pool|
    ensures forall k :: 0 <= k < |Aged(pool)| ==> Aged(pool)[k].lifetime > 0
    ensures forall q :: q in Aged(pool) <==> SurvivorOf(pool, q)
  {
    if |pool| > 0 {
      var rest := pool[1..];
      AgedShrinks(rest);
      assert forall k :: 1 <= k < |pool| ==> pool[k] == rest[k - 1];
      forall q | SurvivorOf(rest, q)
        ensures SurvivorOf(pool, q)
      {
        var k :| 0 <= k < |rest| && rest[k].lifetime > 1
                 && q == rest[k].(lifetime := rest[k].lifetime - 1);
        assert pool[k + 1] == rest[k];
      }
      forall q | SurvivorOf(pool, q) && q != pool[0].(lifetime := pool[0].lifetime - 1)
        ensures SurvivorOf(rest, q)
      {
        var k :| 0 <= k < |pool| && pool[k].lifetime > 1
                 && q == pool[k].(lifetime := pool[k].lifetime - 1);
        assert k > 0 && rest[k - 1] == pool[k];
      }
    }
  }

  /** The frame update as the game performs it: a backwards walk over the
      pool that decrements each lifetime and splices out dead particles in
      place. It computes exactly `Aged`. */
  method UpdateParticles(pool: seq<Particle>) returns (r: seq<Particle>)
    ensures r == Aged(pool)
    ensures |r| <= |pool|
    ensures forall k :: 0 <= k < |r| ==> r[k].lifetime > 0
  {
    r := pool;
    var i := |pool| - 1;
    while i >= 0
      invariant -1 <= i < |pool|
      invariant r == pool[..i + 1] + Aged(pool[i + 1..])
    {
      assert pool[i..][1..] == pool[i + 1..];
      var q := r[i].(lifetime := r[i].lifetime - 1);
      if q.lifetime <= 0 {
        r := r[..i] + r[i + 1..];
      } else {
        r := r[..i] + [q] + r[i + 1..];
      }
      i := i - 1;
    }
    assert pool[..0] == [] && pool[0..] == pool;
    AgedShrinks(pool);
  }
}

=== FILE: physics.dfy ===
/** The integrator and the animation bookkeeping that runs at the end of it.
    Random dust particles are left out. */
module Physics {
  import opened PlayerState

  const FramesPerGaitStep: int := 5
  const GaitFrames: int := 4
  const WallDamping: real := 0.8
  const WallRunDamping: real := 0.5
  const RunningThreshold: real := 0.1

  /** A per-frame amount under the current time scale: slow motion scales
      gravity and movement alike. */
  function Scaled(v: real, slowMotion: bool): real
  {
    if slowMotion then v * SlowMotionFactor else v
  }

  /** The player steers toward the side it faces. */
  predicate PressingForward(p: Player, left: bool, right: bool)
  {
    (p.facingRight && right) || (!p.facingRight && left)
  }

  function Abs(v: real): real { if v < 0.0 then -v else v }

  /** The quotient JavaScript's `%` is defined against: the true quotient
      truncated toward zero. */
  function TruncatedQuotient(a: int, n: int): int
    requires n > 0
  {
    if a >= 0 then a / n else -((-a) / n)
  }

  /** The remainder of JavaScript's `%`, which truncates toward zero: what
      is left of `a` after taking away the truncated quotient's multiple of
      `n`, with the sign of `a`. */
  function JsRemainder(a: int, n: int): (r: int)
    requires n > 0
    ensures a == TruncatedQuotient(a, n) * n + r
    ensures a >= 0 ==> 0 <= r < n
    ensures a < 0 ==> -n < r <= 0
  {
    if a >= 0 then a % n else -((-a) % n)
  }

  /** The animation state, by priority: wall-running, rolling, airborne
      (rising or falling), running, idle. */
  function Pose(p: Player): Anim
  {
    if p.isWallRunning then WallRunning
    else if p.isRolling then Rolling
    else if !p.onGround then (if p.velocityY < 0.0 then Jumping else Falling)
    else if Abs(p.velocityX) > RunningThreshold then Running
    else Idle
  }

  /** The gait clock is in range: a frame index in 0..3 and a sub-counter in
      0..4. */
  predicate GaitClock(p: Player)
  {
    0 <= p.animationFrame < GaitFrames && 0 <= p.animationTimer < FramesPerGaitStep
  }

  /** Advances the gait clock by one game frame and derives the animation
      state. Running dust is left out. */
  function UpdateAnimationState(p: Player): (q: Player)
    ensures q.animationState == WallRunning <==> p.isWallRunning
    ensures q.animationState == Rolling <==> !p.isWallRunning && p.isRolling
    ensures q.animationState in {Jumping, Falling} <==>
              !p.isWallRunning && !p.isRolling && !p.onGround
    ensures q.animationState == Running <==>
              !p.isWallRunning && !p.isRolling && p.onGround && Abs(p.velocityX) > RunningThreshold
    ensures q.animationState == Jumping ==> p.velocityY < 0.0
    ensures q.animationState == Falling ==> p.velocityY >= 0.0
    ensures GaitClock(p) ==> GaitClock(q)
  {
    var timer := p.animationTimer + 1;
    var step := timer >= FramesPerGaitStep;
    p.(animationTimer := if step then 0 else timer,
       animationFrame := if step then JsRemainder(p.animationFrame + 1, GaitFrames)
                         else p.animationFrame,
       animationState := Pose(p))
  }

  /** `n` game frames of the gait clock. */
  function GaitFramesAfter(p: Player, n: nat): Player
    decreases n
  {
    if n == 0 then p else UpdateAnimationState(GaitFramesAfter(p, n - 1))
  }

  /** The gait advances exactly one step every fifth game frame, cycling
      through its four frames. */
  lemma {:induction false} GaitAdvancesEveryFifthFrame(p: Player, n: nat)
    requires GaitClock(p)
    ensures GaitFramesAfter(p, n).animationTimer == (p.animationTimer + n) % FramesPerGaitStep
    ensures GaitFramesAfter(p, n).animationFrame
            == (p.animationFrame + (p.animationTimer + n) / FramesPerGaitStep) % GaitFrames
    decreases n
  {
    if n > 0 {
      GaitAdvancesEveryFifthFrame(p, n - 1);
      var prev := GaitFramesAfter(p, n - 1);
      var m := p.animationTimer + n - 1;
      assert prev.animationTimer == m % 5;
      assert prev.animationFrame == (p.animationFrame + m / 5) % 4;
      ClockStep(m, p.animationFrame);
      var next := UpdateAnimationState(prev);
      assert GaitFramesAfter(p, n) == next;
      if m % 5 == 4 {
        assert next.animationTimer == 0;
        assert next.animationFrame == (prev.animationFrame + 1) % 4;
      } else {
        assert next.animationTimer == prev.animationTimer + 1;
        assert next.animationFrame == prev.animationFrame;
      }
    }
  }

  /** One game frame on a clock that has counted `m` frames since a gait
      frame `base`: the sub-counter either wraps and the frame index steps,
      or the sub-counter steps and the frame index stays. */
  lemma ClockStep(m: nat, base: nat)
    ensures m % 5 + 1 >= 5 ==>
              (m + 1) % 5 == 0 && ((base + m / 5) % 4 + 1) % 4 == (base + (m + 1) / 5) % 4
    ensures m % 5 + 1 < 5 ==>
              (m + 1) % 5 == m % 5 + 1 && (base + m / 5) % 4 == (base + (m + 1) / 5) % 4
  {
    if m % 5 == 4 {
      assert (m + 1) / 5 == m / 5 + 1;
      WrapStep(base + m / 5);
    } else {
      assert (m + 1) / 5 == m / 5;
    }
  }

  /** Stepping a frame index that is already reduced modulo four. */
  lemma WrapStep(f: nat)
    ensures (f % 4 + 1) % 4 == (f + 1) % 4
  {
  }

  /** The integrator: gravity, wall damping, position update, then the
      contact flags are cleared for the resolver to set again. */
  function Integrate(p: Player, slowMotion: bool, left: bool, right: bool): (q: Player)
    ensures var fallen := p.velocityY + Scaled(Gravity, slowMotion);
            && (!p.touchingWall || p.onGround ==> q.velocityY == fallen)
            && (p.touchingWall && !p.onGround && !PressingForward(p, left, right) ==>
                  q.velocityY == fallen * WallDamping)
            && (q.isWallRunning ==> q.velocityY == fallen * WallDamping * WallRunDamping)
    ensures q.isWallRunning <==> p.touchingWall && !p.onGround && PressingForward(p, left, right)
    ensures q.x == p.x + Scaled(p.velocityX, slowMotion)
    ensures q.y == p.y + Scaled(q.velocityY, slowMotion)
    ensures q.velocityX == p.velocityX && !q.touchingWall && !q.onGround
    ensures q.facingRight == p.facingRight && q.isSprinting == p.isSprinting
  {
    var fallen := p.velocityY + Scaled(Gravity, slowMotion);
    var clinging := p.touchingWall && !p.onGround;
    var running := clinging && PressingForward(p, left, right);
    var vy := if running then fallen * WallDamping * WallRunDamping
              else if clinging then fallen * WallDamping
              else fallen;
    p.(velocityY := vy, isWallRunning := running,
       x := p.x + Scaled(p.velocityX, slowMotion), y := p.y + Scaled(vy, slowMotion),
       onGround := false, touchingWall := false)
  }

  /** `n` frames of integration with no steering, as a jump or a fall away
      from any wall goes. */
  function Flight(p: Player, slowMotion: bool, n: nat): Player
    decreases n
  {
    if n == 0 then p else Integrate(Flight(p, slowMotion, n - 1), slowMotion, false, false)
  }

  /** How far a body starting at vertical speed `v0` falls in `m` frames
      under gravity `g` per frame, before time scaling: the sum of the speeds
      `v0 + g`, ..., `v0 + m * g`. */
  function FallDistance(v0: real, g: real, m: real): real
  {
    m * v0 + g * (m * (m + 1.0) / 2.0)
  }

  /** How far `m` frames carry a body moving `step` per frame. */
  function Travel(step: real, m: real): real
  {
    m * step
  }

  /** Away from walls the integrator follows the discrete parabola: after
      `n` frames the vertical speed has gained `n` scaled gravity steps, the
      height has moved by the scaled sum of the speeds of those frames, and
      the horizontal speed has carried the player `n` scaled steps. */
  lemma {:induction false} FlightFollowsParabola(p: Player, slowMotion: bool, n: nat)
    requires !p.touchingWall
    ensures Flight(p, slowMotion, n).velocityY
            == p.velocityY + Travel(Scaled(Gravity, slowMotion), n as real)
    ensures Flight(p, slowMotion, n).y
            == p.y + Scaled(FallDistance(p.velocityY, Scaled(Gravity, slowMotion), n as real), slowMotion)
    ensures Flight(p, slowMotion, n).x == p.x + Travel(Scaled(p.velocityX, slowMotion), n as real)
    ensures Flight(p, slowMotion, n).velocityX == p.velocityX
    ensures !Flight(p, slowMotion, n).touchingWall
    decreases n
  {
    if n == 0 {
      assert FallDistance(p.velocityY, Scaled(Gravity, slowMotion), 0.0) == 0.0;
      assert Travel(Scaled(p.velocityX, slowMotion), 0.0) == 0.0;
      assert Travel(Scaled(Gravity, slowMotion), 0.0) == 0.0;
    } else {
      FlightFollowsParabola(p, slowMotion, n - 1);
      var prev := Flight(p, slowMotion, n - 1);
      var q := Integrate(prev, slowMotion, false, false);
      assert Flight(p, slowMotion, n) == q;
      ParabolaStep(p.y, p.velocityY, p.x, p.velocityX, Scaled(Gravity, slowMotion),
                   (n - 1) as real, n as real, slowMotion,
                   prev.y, prev.velocityY, prev.x, q.y, q.velocityY, q.x);
    }
  }

  /** One frame of the parabola: a state on the curve after `m` frames,
      moved by one frame of free flight, is on the curve after `m + 1`. */
  lemma ParabolaStep(y0: real, v0: real, x0: real, vx: real, g: real, m: real, next: real,
                     slowMotion: bool, y: real, v: real, x: real, y': real, v': real, x': real)
    requires next == m + 1.0
    requires v == v0 + Travel(g, m)
    requires y == y0 + Scaled(FallDistance(v0, g, m), slowMotion)
    requires x == x0 + Travel(Scaled(vx, slowMotion), m)
    requires v' == v + g && y' == y + Scaled(v', slowMotion) && x' == x + Scaled(vx, slowMotion)
    ensures v' == v0 + Travel(g, next)
    ensures y' == y0 + Scaled(FallDistance(v0, g, next), slowMotion)
    ensures x' == x0 + Travel(Scaled(vx, slowMotion), next)
  {
    assert v' == v0 + next * g;
    assert FallDistance(v0, g, m) + (v0 + next * g) == FallDistance(v0, g, next);
  }

  /** The physics step: integrate, then derive the animation state. Because
      the contact flags are cleared first, the derived state is never
      `Running` or `Idle`. */
  function ApplyPhysics(p: Player, slowMotion: bool, left: bool, right: bool): (q: Player)
    ensures var fallen := p.velocityY + Scaled(Gravity, slowMotion);
            && (!p.touchingWall || p.onGround ==> q.velocityY == fallen)
            && (p.touchingWall && !p.onGround && !PressingForward(p, left, right) ==>
                  q.velocityY == fallen * WallDamping)
            && (q.isWallRunning ==> q.velocityY == fallen * WallDamping * WallRunDamping)
    ensures q.isWallRunning <==> p.touchingWall && !p.onGround && PressingForward(p, left, right)
    ensures q.x == p.x + Scaled(p.velocityX, slowMotion)
    ensures q.y == p.y + Scaled(q.velocityY, slowMotion)
    ensures !q.onGround && !q.touchingWall
    ensures q.animationState != Running && q.animationState != Idle
    ensures GaitClock(p) ==> GaitClock(q)
    ensures q.width == p.width && q.height == p.height && q.velocityX == p.velocityX
    ensures q.isJumping == p.isJumping && q.hasDoubleJump == p.hasDoubleJump
    ensures q.isRolling == p.isRolling && q.rollTimer == p.rollTimer
    ensures q.checkpointX == p.checkpointX && q.checkpointY == p.checkpointY
    ensures q.facingRight == p.facingRight && q.isSprinting == p.isSprinting
  {
    UpdateAnimationState(Integrate(p, slowMotion, left, right))
  }
}

=== FILE: player.dfy ===
/** The player record, the logical input of one frame, and the constants of
    the player's movement. */
module PlayerState {
  import opened Geometry

  const Gravity: real := 0.5
  const JumpForce: real := -12.0
  const MoveSpeed: real := 5.0
  const SprintMultiplier: real := 1.8
  const WallJumpHorizontalForce: real := 8.0
  const RollDuration: int := 20
  const SlowMotionFactor: real := 0.3
  const StandingHeight: real := 40.0
  const RollingHeight: real := 20.0

  /** The animation states, derived each frame from the player's flags. */
  datatype Anim = Idle | Running | Jumping | Falling | Rolling | WallRunning

  datatype Player = Player(
    x: real, y: real, width: real, height: real,
    velocityX: real, velocityY: real,
    isJumping: bool, isWallRunning: bool, isRolling: bool, rollTimer: int,
    isSprinting: bool, facingRight: bool, onGround: bool, touchingWall: bool,
    animationState: Anim, animationFrame: int, animationTimer: int,
    hasDoubleJump: bool, checkpointX: real, checkpointY: real)
  {
    /** The player's bounding box, as the collision tests see it. */
    function Box(): Rect
    {
      Rect(x, y, width, height)
    }
  }

  /** The keyboard and touch controls of one frame, already OR-combined per
      action. */
  datatype Intent = Intent(left: bool, right: bool, jump: bool, sprint: bool, roll: bool)

  /** The shape a roll gives the player: short and counting down while
      rolling. */
  predicate RollShape(p: Player)
  {
    p.isRolling ==> p.height == RollingHeight && p.rollTimer > 0
  }
}

=== FILE: powerups.dfy ===
/** The timed power-up effects: three integer countdowns measured in frames,
    where zero means the effect is inactive. */
module PowerUps {

  const SpeedBoostDuration: int := 300
  const DoubleJumpDuration: int := 600
  const InvincibilityDuration: int := 180

  /** The remaining frames of each effect. */
  datatype Timers = Timers(speedBoost: int, doubleJump: int, invincibility: int)

  /** Every effect switched off, as after a reset. */
  const Inactive: Timers := Timers(0, 0, 0)

  /** The `type` tag of a power-up; any other tag is kept as `Unrecognized`. */
  datatype Kind = Speed | DoubleJump | Invincibility | Unrecognized(tag: string)

  predicate NonNegative(t: Timers)
  {
    t.speedBoost >= 0 && t.doubleJump >= 0 && t.invincibility >= 0
  }

  /** One countdown step of a single timer. */
  function CountDown(n: int): int
  {
    if n > 0 then n - 1 else n
  }

  /** The once-per-frame update: each running effect loses exactly one frame
      and an inactive one stays inactive. */
  function Tick(t: Timers): (r: Timers)
    ensures t.speedBoost > 0 ==> r.speedBoost == t.speedBoost - 1
    ensures t.doubleJump > 0 ==> r.doubleJump == t.doubleJump - 1
    ensures t.invincibility > 0 ==> r.invincibility == t.invincibility - 1
    ensures t.speedBoost == 0 ==> r.speedBoost == 0
    ensures t.doubleJump == 0 ==> r.doubleJump == 0
    ensures t.invincibility == 0 ==> r.invincibility == 0
    ensures NonNegative(t) ==> NonNegative(r)
  {
    Timers(CountDown(t.speedBoost), CountDown(t.doubleJump), CountDown(t.invincibility))
  }

  /** `n` consecutive frames of countdown. */
  function Ticks(t: Timers, n: nat): Timers
    decreases n
  {
    if n == 0 then t else Ticks(Tick(t), n - 1)
  }

  function Floor0(n: int): nat { if n < 0 then 0 else n }

  /** After `n` frames a timer that started non-negative holds what was left
      of it, never less than zero: a timer reaches zero and stays there. */
  lemma {:induction false} TicksCountDown(t: Timers, n: nat)
    requires NonNegative(t)
    ensures Ticks(t, n) == Timers(Floor0(t.speedBoost - n), Floor0(t.doubleJump - n),
                                  Floor0(t.invincibility - n))
    decreases n
  {
    if n > 0 {
      TicksCountDown(Tick(t), n - 1);
    }
  }

  /** The timer that a power-up of kind `k` drives; an unrecognized kind
      drives none. */
  function Remaining(t: Timers, k: Kind): int
  {
    match k
    case Speed => t.speedBoost
    case DoubleJump => t.doubleJump
    case Invincibility => t.invincibility
    case Unrecognized(_) => 0
  }

  /** The full duration of the effect of kind `k`. */
  function Duration(k: Kind): int
  {
    match k
    case Speed => SpeedBoostDuration
    case DoubleJump => DoubleJumpDuration
    case Invincibility => InvincibilityDuration
    case Unrecognized(_) => 0
  }

  /** Picking up a power-up of kind `k`: returns the new timers and the new
      `hasDoubleJump` flag of the player. Each known kind restarts exactly its
      own timer at its fixed duration; an unrecognized kind changes nothing. */
  function Activate(t: Timers, hasDoubleJump: bool, k: Kind): (r: (Timers, bool))
    ensures k == Speed ==> r == (t.(speedBoost := 300), hasDoubleJump)
    ensures k == DoubleJump ==> r == (t.(doubleJump := 600), true)
    ensures k == Invincibility ==> r == (t.(invincibility := 180), hasDoubleJump)
    ensures k.Unrecognized? ==> r == (t, hasDoubleJump)
    ensures NonNegative(t) ==> NonNegative(r.0)
  {
    match k
    case Speed => (t.(speedBoost := SpeedBoostDuration), hasDoubleJump)
    case DoubleJump => (t.(doubleJump := DoubleJumpDuration), true)
    case Invincibility => (t.(invincibility := InvincibilityDuration), hasDoubleJump)
    case Unrecognized(_) => (t, hasDoubleJump)
  }
}

=== FILE: run.dfy ===
/** The game state between frames and the frame update that drives the
    other modules: level loading, the two resets, level completion, and the
    goal and fall checks. The canvas size and the completion date are
    parameters; the host's timers, storage and screen are not modelled. */
module Run {
  import opened Geometry
  import opened PowerUps
  import opened Particles
  import opened PlayerState
  import opened Levels
  import opened Collisions
  import opened Input
  import opened Physics
  import opened Leaderboard

  /** Game time per frame, in seconds, at full speed. */
  const FrameSeconds: real := 1.0 / 60.0

  /** How far below the canvas the player may fall before respawning. */
  const FallMargin: real := 100.0

  /** The whole game: the level templates, the working copy of the current
      level, the player, the power-up timers, the particle pool, the
      leaderboard, and the frame-loop flags. */
  datatype World = World(
    levels: seq<Level>,
    currentLevel: nat,
    stage: Level,
    player: Player,
    timers: Timers,
    particles: seq<Particle>,
    leaderboard: seq<Entry>,
    gameStarted: bool,
    gameTime: real,
    slowMotion: bool,
    levelCompleting: bool)

  /** `a` is a working copy of template `b`: the same layout, the same
      power-ups in the same places, with possibly different `collected`
      flags. */
  predicate SameLayout(a: Level, b: Level)
  {
    && a.name == b.name && a.platforms == b.platforms && a.walls == b.walls
    && a.billboards == b.billboards && a.obstacles == b.obstacles
    && a.checkpoints == b.checkpoints && a.goal == b.goal
    && a.startX == b.startX && a.startY == b.startY
    && |a.powerUps| == |b.powerUps|
    && forall k :: 0 <= k < |a.powerUps| ==>
         a.powerUps[k].box == b.powerUps[k].box && a.powerUps[k].kind == b.powerUps[k].kind
  }

  /** What every frame keeps true. */
  predicate Valid(w: World)
  {
    && w.currentLevel < |w.levels|
    && SameLayout(w.stage, w.levels[w.currentLevel])
    && NonNegative(w.timers)
    && |w.particles| <= MaxParticles
    && SortedByTime(w.leaderboard) && |w.leaderboard| <= MaxEntries
    && RollShape(w.player)
    && GaitClock(w.player)
  }

  // ------------------------------------------------------------ level loading

  /** Loads a level: the stage becomes a fresh copy of its template, so that
      collecting power-ups in play never alters the template. */
  function LoadLevel(w: World, index: nat): (r: World)
    requires index < |w.levels|
    ensures SameLayout(r.stage, w.levels[index])
    ensures forall k :: 0 <= k < |r.stage.powerUps| ==>
              r.stage.powerUps[k].collected == w.levels[index].powerUps[k].collected
    ensures r.levels == w.levels && r.player == w.player && r.timers == w.timers
    ensures r.leaderboard == w.leaderboard && r.gameTime == w.gameTime
  {
    w.(stage := w.levels[index])
  }

  // ------------------------------------------------------------------- resets

  /** Every power-up of the stage, uncollected. */
  function Uncollected(us: seq<PowerUp>): (r: seq<PowerUp>)
    ensures |r| == |us|
    ensures forall k :: 0 <= k < |us| ==>
              r[k].box == us[k].box && r[k].kind == us[k].kind && !r[k].collected
  {
    seq(|us|, k requires 0 <= k < |us| => us[k].(collected := false))
  }

  /** The movement state a reset clears, with the player placed at `(x, y)`.
      Height, contact flags and the gait clock are not touched. */
  function Respawned(p: Player, x: real, y: real): Player
  {
    p.(x := x, y := y, velocityX := 0.0, velocityY := 0.0,
       isJumping := false, isWallRunning := false, isRolling := false, rollTimer := 0,
       isSprinting := false, facingRight := true, hasDoubleJump := false)
  }

  /** Restarts the current level: the player goes back to the level's start,
      which also becomes its checkpoint; the clock, the timers, the flags and
      the power-ups are reset. The player's height is not restored, so a
      reset during a roll leaves a short, non-rolling player. */
  function ResetGame(w: World): (r: World)
    requires w.currentLevel < |w.levels|
    ensures var start := w.levels[w.currentLevel];
            && r.player.x == start.startX && r.player.y == start.startY
            && r.player.checkpointX == start.startX && r.player.checkpointY == start.startY
    ensures r.player.velocityX == 0.0 && r.player.velocityY == 0.0
    ensures !r.player.isJumping && !r.player.isWallRunning && !r.player.isRolling
    ensures r.player.rollTimer == 0 && !r.player.isSprinting && r.player.facingRight
    ensures !r.player.hasDoubleJump
    ensures r.player.height == w.player.height && r.player.width == w.player.width
    ensures r.timers == Inactive && r.gameTime == 0.0
    ensures !r.gameStarted && !r.slowMotion && !r.levelCompleting
    ensures |r.stage.powerUps| == |w.stage.powerUps|
    ensures forall k :: 0 <= k < |r.stage.powerUps| ==>
              && !r.stage.powerUps[k].collected
              && r.stage.powerUps[k].box == w.stage.powerUps[k].box
              && r.stage.powerUps[k].kind == w.stage.powerUps[k].kind
    ensures r.levels == w.levels && r.currentLevel == w.currentLevel
    ensures r.leaderboard == w.leaderboard && r.particles == w.particles
  {
    var start := w.levels[w.currentLevel];
    var p := Respawned(w.player, start.startX, start.startY);
    w.(player := p.(checkpointX := start.startX, checkpointY := start.startY),
       gameTime := 0.0, gameStarted := false, slowMotion := false, levelCompleting := false,
       timers := Inactive,
       stage := w.stage.(powerUps := Uncollected(w.stage.powerUps)))
  }

  /** A second reset changes nothing more. */
  lemma ResetGameIdempotent(w: World)
    requires w.currentLevel < |w.levels|
    ensures ResetGame(ResetGame(w)) == ResetGame(w)
  {
    var once := ResetGame(w);
    assert Uncollected(once.stage.powerUps) == once.stage.powerUps;
  }

  /** Respawns the player at its last checkpoint: movement state and timers
      are cleared, the game clock keeps running. */
  function ResetToCheckpoint(w: World): (r: World)
    ensures r.player.x == w.player.checkpointX && r.player.y == w.player.checkpointY
    ensures r.player.checkpointX == w.player.checkpointX
    ensures r.player.checkpointY == w.player.checkpointY
    ensures r.player.velocityX == 0.0 && r.player.velocityY == 0.0
    ensures !r.player.isJumping && !r.player.isWallRunning && !r.player.isRolling
    ensures r.player.rollTimer == 0 && !r.player.isSprinting && r.player.facingRight
    ensures !r.player.hasDoubleJump
    ensures r.player.height == w.player.height && r.player.width == w.player.width
    ensures r.timers == Inactive
    ensures r.gameTime == w.gameTime && r.stage == w.stage && r.leaderboard == w.leaderboard
    ensures r.levelCompleting == w.levelCompleting && r.slowMotion == w.slowMotion
    ensures r.levels == w.levels && r.currentLevel == w.currentLevel
    ensures r.gameStarted == w.gameStarted && r.particles == w.particles
    ensures r.player.animationFrame == w.player.animationFrame
    ensures r.player.animationTimer == w.player.animationTimer
  {
    w.(player := Respawned(w.player, w.player.checkpointX, w.player.checkpointY),
       timers := Inactive)
  }

  /** Respawning twice is respawning once. */
  lemma ResetToCheckpointIdempotent(w: World)
    ensures ResetToCheckpoint(ResetToCheckpoint(w)) == ResetToCheckpoint(w)
  {
  }

  // --------------------------------------------------------- level completion

  /** Completes the level once: the first call records the time on the
      leaderboard and raises the completion flag; while the flag is up,
      further calls do nothing. */
  function CompleteLevel(w: World, date: string): (r: World)
    ensures w.levelCompleting ==> r == w
    ensures !w.levelCompleting ==>
              && r.levelCompleting
              && r.leaderboard == Record(w.leaderboard, Entry(w.currentLevel, w.gameTime, date))
    ensures SortedByTime(w.leaderboard) && |w.leaderboard| <= MaxEntries ==>
              SortedByTime(r.leaderboard) && |r.leaderboard| <= MaxEntries
    ensures r.player == w.player && r.gameTime == w.gameTime && r.stage == w.stage
  {
    if w.levelCompleting then w
    else w.(levelCompleting := true,
            leaderboard := Record(w.leaderboard, Entry(w.currentLevel, w.gameTime, date)))
  }

  /** A completion is recorded once, however often the goal is touched. */
  lemma CompletionRecordedOnce(w: World, date1: string, date2: string)
    ensures CompleteLevel(CompleteLevel(w, date1), date2) == CompleteLevel(w, date1)
  {
  }

  // ----------------------------------------------------------------- the frame

  /** The goal check: touching the goal while no completion is pending
      completes the level. */
  function GoalCheck(w: World, date: string): (r: World)
    ensures !w.levelCompleting && Overlaps(w.player.Box(), w.stage.goal) ==>
              && r.levelCompleting
              && r.leaderboard == Record(w.leaderboard, Entry(w.currentLevel, w.gameTime, date))
    ensures w.levelCompleting || !Overlaps(w.player.Box(), w.stage.goal) ==> r == w
    ensures r.player == w.player && r.stage == w.stage && r.timers == w.timers
    ensures r.levels == w.levels && r.currentLevel == w.currentLevel
    ensures r.gameStarted == w.gameStarted && r.gameTime == w.gameTime
    ensures r.particles == w.particles
    ensures |r.leaderboard| <= |w.leaderboard| + 1
    ensures SortedByTime(w.leaderboard) && |w.leaderboard| <= MaxEntries ==>
              SortedByTime(r.leaderboard) && |r.leaderboard| <= MaxEntries
  {
    if !w.levelCompleting && Overlaps(w.player.Box(), w.stage.goal) then CompleteLevel(w, date)
    else w
  }

  /** The fall check: a player whose top edge is more than the margin below
      the canvas respawns at its checkpoint. */
  function FallCheck(w: World, canvasHeight: real): (r: World)
    ensures w.player.y > canvasHeight + FallMargin ==>
              && r.player.x == w.player.checkpointX && r.player.y == w.player.checkpointY
              && r.player.velocityX == 0.0 && r.player.velocityY == 0.0
              && r.timers == Inactive
    ensures w.player.y <= canvasHeight + FallMargin ==> r == w
    ensures r.leaderboard == w.leaderboard && r.stage == w.stage && r.gameTime == w.gameTime
    ensures r.levelCompleting == w.levelCompleting
    ensures r.levels == w.levels && r.currentLevel == w.currentLevel
    ensures r.gameStarted == w.gameStarted && r.particles == w.particles
    ensures RollShape(w.player) ==> RollShape(r.player)
    ensures GaitClock(w.player) ==> GaitClock(r.player)
    ensures NonNegative(w.timers) ==> NonNegative(r.timers)
  {
    if w.player.y > canvasHeight + FallMargin then ResetToCheckpoint(w) else w
  }

  /** What a frame's player step hands back: the resolved player, timers,
      power-ups and particles, and the slow-motion flag input may have
      raised. */
  datatype Stepped = Stepped(resolved: Resolved, slowMotion: bool)

  /** The player's part of a frame: input on freshly ticked timers, physics,
      then collisions against the stage. */
  function PlayerStep(p: Player, t: Timers, slowMotion: bool, pool: seq<Particle>, stage: Level,
                      i: Intent, canvasWidth: real): (r: Stepped)
    ensures NonNegative(t) ==> NonNegative(r.resolved.timers)
    ensures RollShape(p) ==> RollShape(r.resolved.player)
    ensures |pool| <= MaxParticles ==> |r.resolved.particles| <= MaxParticles
    ensures |r.resolved.powerUps| == |stage.powerUps|
    ensures forall k :: 0 <= k < |stage.powerUps| ==>
              && r.resolved.powerUps[k].box == stage.powerUps[k].box
              && r.resolved.powerUps[k].kind == stage.powerUps[k].kind
    ensures var c := HandleInput(p, Tick(t), slowMotion, i);
            && r.resolved == CheckCollisions(ApplyPhysics(c.player, c.slowMotion, i.left, i.right),
                                             c.timers, pool, stage, i, canvasWidth)
            && r.slowMotion == c.slowMotion
  {
    var controlled := HandleInput(p, Tick(t), slowMotion, i);
    var moved := ApplyPhysics(controlled.player, controlled.slowMotion, i.left, i.right);
    Stepped(CheckCollisions(moved, controlled.timers, pool, stage, i, canvasWidth),
            controlled.slowMotion)
  }

  /** The player step keeps the gait clock in range. */
  lemma PlayerStepKeepsGaitClock(p: Player, t: Timers, slowMotion: bool, pool: seq<Particle>,
                                 stage: Level, i: Intent, canvasWidth: real)
    requires GaitClock(p)
    ensures GaitClock(PlayerStep(p, t, slowMotion, pool, stage, i, canvasWidth).resolved.player)
  {
    var controlled := HandleInput(p, Tick(t), slowMotion, i);
    var moved := ApplyPhysics(controlled.player, controlled.slowMotion, i.left, i.right);
    assert GaitClock(moved);
  }

  /** Standing still on the first platform is a fixed point of a frame's
      physics and platform pass: gravity pulls the player one frame into the
      platform, the landing test sees its previous bottom on the top face,
      and it is put back where it stood. */
  lemma StandingStaysOnPlatform(p: Player, slowMotion: bool, left: bool, right: bool,
                                pool: seq<Particle>, invincibility: int, ps: seq<Rect>)
    requires |ps| > 0 && p.y + p.height == ps[0].y && ps[0].height >= 0.0
    requires p.height >= RollingHeight
    requires p.x < ps[0].x + ps[0].width && ps[0].x < p.x + p.width
    requires p.velocityY == 0.0 && p.velocityX == 0.0 && !p.touchingWall
    ensures var q := PlatformPass(BodyOf(ApplyPhysics(p, slowMotion, left, right)), pool,
                                  invincibility, ps).0;
            RestsOn(q, ps[0]) && q.y == p.y
  {
    var moved := BodyOf(ApplyPhysics(p, slowMotion, left, right));
    assert moved.velocityY == Scaled(Gravity, slowMotion) > 0.0;
    assert Overlaps(moved.Box(), ps[0]) && LandsOn(moved, ps[0]);
  }

  /** The simulation part of a frame: the clock, the power-up timers, input,
      physics, collisions and particle ageing. */
  function Simulate(w: World, i: Intent, canvasWidth: real): (r: World)
    ensures r.gameTime == w.gameTime + (if w.slowMotion then FrameSeconds * SlowMotionFactor
                                        else FrameSeconds)
    ensures r.levels == w.levels && r.currentLevel == w.currentLevel
    ensures r.leaderboard == w.leaderboard && r.levelCompleting == w.levelCompleting
    ensures r.gameStarted == w.gameStarted
    ensures var step := PlayerStep(w.player, w.timers, w.slowMotion, w.particles, w.stage, i,
                                   canvasWidth);
            && r.player == step.resolved.player && r.timers == step.resolved.timers
            && r.stage == w.stage.(powerUps := step.resolved.powerUps)
            && r.particles == Aged(step.resolved.particles)
            && r.slowMotion == step.slowMotion
    ensures w.slowMotion ==> r.slowMotion
  {
    var clock := w.gameTime + (if w.slowMotion then FrameSeconds * SlowMotionFactor
                               else FrameSeconds);
    var step := PlayerStep(w.player, w.timers, w.slowMotion, w.particles, w.stage, i,
                           canvasWidth);
    var resolved := step.resolved;
    w.(gameTime := clock, player := resolved.player, timers := resolved.timers,
       slowMotion := step.slowMotion,
       stage := w.stage.(powerUps := resolved.powerUps),
       particles := Aged(resolved.particles))
  }

  /** The simulation part of a frame keeps the game's invariant. */
  lemma SimulatePreservesValid(w: World, i: Intent, canvasWidth: real)
    requires Valid(w)
    ensures Valid(Simulate(w, i, canvasWidth))
  {
    var step := PlayerStep(w.player, w.timers, w.slowMotion, w.particles, w.stage, i,
                           canvasWidth);
    PlayerStepKeepsGaitClock(w.player, w.timers, w.slowMotion, w.particles, w.stage, i,
                             canvasWidth);
    AgedShrinks(step.resolved.particles);
  }

  /** One frame of the game loop: simulate, then the goal check, then the
      fall check. Nothing happens before the game has started. */
  function Update(w: World, i: Intent, canvasWidth: real, canvasHeight: real, date: string)
    : (r: World)
    ensures !w.gameStarted ==> r == w
    ensures w.gameStarted ==>
              r.gameTime == w.gameTime + (if w.slowMotion then FrameSeconds * SlowMotionFactor
                                          else FrameSeconds)
    ensures r.levels == w.levels && r.currentLevel == w.currentLevel
    ensures r.gameStarted == w.gameStarted
    ensures w.levelCompleting ==> r.levelCompleting && r.leaderboard == w.leaderboard
    ensures |r.leaderboard| <= |w.leaderboard| + 1
    // a started frame: simulate, then the goal check, then the fall check
    ensures var s := Simulate(w, i, canvasWidth);
            w.gameStarted && !s.levelCompleting && Overlaps(s.player.Box(), s.stage.goal) ==>
              && r.levelCompleting
              && r.leaderboard == Record(s.leaderboard, Entry(s.currentLevel, s.gameTime, date))
    ensures var s := Simulate(w, i, canvasWidth);
            w.gameStarted && (s.levelCompleting || !Overlaps(s.player.Box(), s.stage.goal)) ==>
              r.leaderboard == s.leaderboard && r.levelCompleting == s.levelCompleting
    ensures var s := Simulate(w, i, canvasWidth);
            w.gameStarted && s.player.y > canvasHeight + FallMargin ==>
              r.player == ResetToCheckpoint(s).player && r.timers == Inactive
    ensures var s := Simulate(w, i, canvasWidth);
            w.gameStarted && s.player.y <= canvasHeight + FallMargin ==>
              && r.player == s.player && r.timers == s.timers
              && r.stage == s.stage && r.particles == s.particles
  {
    if !w.gameStarted then w
    else FallCheck(GoalCheck(Simulate(w, i, canvasWidth), date), canvasHeight)
  }

  /** Every frame keeps the game's invariant. */
  lemma UpdatePreservesValid(w: World, i: Intent, canvasWidth: real, canvasHeight: real,
                             date: string)
    requires Valid(w)
    ensures Valid(Update(w, i, canvasWidth, canvasHeight, date))
  {
    if w.gameStarted {
      var s := Simulate(w, i, canvasWidth);
      SimulatePreservesValid(w, i, canvasWidth);
      var g := GoalCheck(s, date);
      assert Valid(g);
      var f := FallCheck(g, canvasHeight);
      assert Update(w, i, canvasWidth, canvasHeight, date) == f;
    }
  }
}
